=== FILE: README.md ===
# ToK conversation state, modelled in Dafny

ToK is a local retrieval-augmented chat assistant. It has three Flask back-ends (`app/main.py`, `tok/main.py`, `server/server.py`) and three React front-ends (`app`, `client`, `ui`). This project models the conversation state they share and proves properties of it:

- **Browser message store.** Submitting a query appends a user message and an empty bot placeholder, and streams chunks into the placeholder by id. Selecting a past session rebuilds the store from the saved session list. Restoring the stored selection at start-up and the New Chat reset are modelled too.
- **Session log on disk.** Index 0 holds a header (title and, in `app`, a date); every later entry holds a query and a response.
- **Server routes that read or write the log:**
  - session creation and numbering;
  - saving a turn;
  - the title cut out of the model's answer, both the `split('"')[1]` variant and the `find`-slicing variant;
  - the history catalog, either a flat `[title, filename]` list or four dated buckets;
  - `choose_chat_history`, which rebuilds the server's chat memory;
  - `new_chat`.
- **Model registry.** `select_model` / `delete_model`, where the current model falls back to a default when it is deleted.
- **Editors.** The prompt editor of the settings dialog, the upload dialog, and the metadata the upload routes attach to documents.

Everything is immutable data and pure functions. Replies from the network and from the model runner are parameters: an `Option` or `Result` for a request that can fail, a sequence of strings for a stream. The folder of session files is a list of `SessionFile(name, log)` values, and dates are integer day numbers.

Files, one module each:

- `wrappers.dfy`: `Option` and `Result`.
- `text.dfy`: JavaScript `trim` and Python `find`, slicing, `split` and `str(n)`.
- `ordered.dfy`: insertion-ordered lists and dictionaries: find, upsert, filter, `d[k] = v`.
- `messages.dfy`: the message store and chunk streaming.
- `chat_area.dfy`: submit, the model picker, the latest-message marker and the upload form.
- `session_log.dfy`: session entries, the browser rebuild and the server memory rebuild.
- `left_panel.dfy`: select, restore, New Chat and the catalog buttons.
- `titles.dfy`: the two title extractions.
- `session_store.dfy`: the session folder, numbering, saving, history and date buckets.
- `chat_server.dfy`: `choose_chat_history`, `new_chat` and the non-streaming `query` of `server/server.py`.
- `streaming_query.dfy`: the streaming `query` of `tok` and `app`, as written and corrected.
- `registry.dfy`: the model registry.
- `metadata.dfy`: the upload metadata.
- `settings_modal.dfy`: the prompt editor and `delete_prompt`.
- `upload_modal.dfy`: the upload dialog.

## Model

| member | source | states |
|---|---|---|
| Text.Trim | ui/src/components/ChatArea.js:106-112 | `trim()` is a slice of the input with only white space cut at each end, and it neither starts nor ends with white space |
| Text.TrimEmptyIffAllSpace | ui/src/components/ChatArea.js:106 | the empty-input guard fires exactly when every character of the input is white space |
| Text.TrimUntrimmable | ui/src/components/ChatArea.js:106 | an input with no white space at either end is sent as typed, so trimming twice is trimming once |
| Text.Find | server/server.py:128-129 | `find` returns -1 exactly when the character is absent; otherwise it returns the index of its first occurrence |
| Text.Split | tok/main.py:162 | `split('"')` gives at least one part |
| Text.SplitPartsFree | tok/main.py:162 | no part of `split('"')` holds the separator |
| Text.SplitSingle | tok/main.py:162 | a split has a single part, so that `[1]` raises, exactly when the input has no separator |
| Text.SplitJoin | tok/main.py:162 | splitting undoes joining when no part holds the separator |
| Text.SplitAfterPrefix | tok/main.py:162 | splitting at the first separator after a separator-free prefix cuts off exactly that prefix |
| Text.FindAfterPrefix | server/server.py:128-129 | the first separator after a separator-free prefix is found at the prefix's length |
| Text.NatToString | tok/main.py:102 | `str(n)` is a non-empty string of decimal digits without a leading zero whose decimal value is `n` |
| Text.NatToStringInjective | tok/main.py:100-105 | different session numbers give different file names |
| Titles.TitleBySplit | tok/main.py:161-162 | `split('"')[1]` fails (an IndexError) exactly when the answer has no quote; otherwise the title holds no quote |
| Titles.SplitTitleIsQuoted | app/main.py:307-308 | the split title is the text after the first quote, up to the next quote or the end |
| Titles.TitleByFind | server/server.py:127-130 | with no quote the title is all but the last character; with exactly one quote it is empty; with two or more it is the text between the first two |
| Titles.TitleExtractionsAgree | server/server.py:128-130 | with two or more quotes both extractions give the same title. With one quote, `split` gives the rest of the answer but slicing gives an empty title. With none, `split` fails while slicing drops the last character |
| Ordered.IndexOf | app/src/components/SettingsModal.js:75 | `findIndex` returns the first position whose key matches, or none when no element matches |
| Ordered.Upsert | app/src/components/SettingsModal.js:75-81 | replaces the first element with the key, which keeps the length, or appends when no element has the key; every other position is unchanged, and the key then finds the new element |
| Ordered.Find | app/src/components/SettingsModal.js:101 | `find` returns the first element of the list with the key, or none exactly when no element has it |
| Ordered.UpsertFind | app/src/components/SettingsModal.js:75-89 | after an upsert the key finds the new element, and every other key finds what it found before |
| Ordered.RemoveWhere | app/main.py:601 | no element the list comprehension keeps is selected by the test |
| Ordered.RemoveWhereAppend | app/main.py:607 | filtering distributes over concatenation, so relative order is preserved |
| Ordered.RemoveWhereCounts | app/main.py:601 | a kept element appears as often as before, and a selected one no longer appears |
| Ordered.RemoveWhereNothing | app/main.py:670 | a filter that selects nothing returns the list unchanged |
| Ordered.RemoveWhereIdempotent | app/main.py:601 | filtering twice is the same as filtering once |
| Ordered.PutGet | app/main.py:348 | after `d[k] = v`, `k` reads `v` and every other key reads what it read before |
| Ordered.PutUnique | app/main.py:348 | `d[k] = v` keeps the keys distinct |
| Ordered.PutAllGet | tok/main.py:249 | after a dict comprehension, a key reads the last value given for it, or its earlier value when no entry carries it |
| Ordered.PutAllUnique | tok/main.py:249 | a dict comprehension yields distinct keys |
| Ordered.PutFresh | app/main.py:415-423 | storing under a new key appends the entry |
| Ordered.PutAllFresh | app/main.py:415-423 | storing entries whose keys are new and distinct appends them all, in order |
| Messages.SetText | ui/src/components/ChatArea.js:151-157 | the map-by-id update keeps the length and changes only the text of messages with that id |
| Messages.SetTextAbsentIsNoop | app/src/components/ChatArea.js:92-98 | an update for an id that no message has changes nothing |
| Messages.ApplyChunks | ui/src/components/ChatArea.js:144-158 | the read loop changes only messages with the placeholder id, and leaves them holding the accumulated text |
| Messages.StreamFillsPlaceholder | app/src/components/ChatArea.js:83-99 | after the stream, the placeholder holds the in-order concatenation of all chunks |
| Messages.ConcatAppend | ui/src/components/ChatArea.js:149 | accumulating two runs of chunks is concatenating each run's text |
| ChatArea.Opened | ui/src/components/ChatArea.js:109-142 | the user message gets id `length+1` and the empty bot placeholder id `length+2`, both from the pre-submit length and appended in that order; numbering stays contiguous |
| ChatArea.AfterRefusal | ui/src/components/ChatArea.js:115-128 | when the reply is not ok, only the user message is appended |
| ChatArea.AfterStream | ui/src/components/ChatArea.js:130-158 | after the stream, the user message is kept, the bot message holds the concatenated chunks, and earlier messages with other ids are unchanged |
| ChatArea.StreamKeepsNumbering | ui/src/components/ChatArea.js:130-158 | on a well-numbered store the stream writes only the placeholder, so the earlier messages and the numbering 1…n+2 survive |
| ChatArea.StreamShape | ui/src/components/ChatArea.js:130-158 | the stream keeps the user turn, fills the placeholder with the chunks in order, and leaves every earlier message with another id alone |
| ChatArea.Submit | ui/src/components/ChatArea.js:104-168 | a blank input changes nothing. Otherwise: the trimmed text is appended as the user message; the placeholder is added only for an ok reply; sending ends false and the input is cleared. `chatStarted` is set only by the `app` tree, and only when the stream finished (app/src/components/ChatArea.js:102-110) |
| ChatArea.FirstExchange | app/src/components/ChatArea.js:46-81 | "hello" into an empty store yields user message 1 and bot message 2, and the bot message holds the whole reply |
| ChatArea.LatestMarks | app/src/components/ChatArea.js:176 | the `is-latest` class applies to a message exactly when `chatStarted` holds and its id equals the store length, which in a contiguously numbered store is the last message |
| ChatArea.Options | ui/src/components/ChatArea.js:51-52 | each model name becomes one option of the given kind, in order |
| ChatArea.Refresh | ui/src/components/ChatArea.js:45-60 | a listing replaces both option lists and both selections, with `''` for a missing selection; a failed fetch changes nothing |
| ChatArea.ModelChange | ui/src/components/ChatArea.js:66-98 | a null option issues no request. A request carries the option's name and kind. Sending is false on exit after success and after failure, and a success refreshes the picker |
| ChatArea.FormAppend | ui/src/components/ChatArea.js:181-185 | the file parts and the count of metadata parts of a form distribute over appending parts |
| ChatArea.FinishUpload | ui/src/components/ChatArea.js:187-202 | only an ok answer logs success; a non-ok answer is thrown and caught like a rejected request, and `finally` leaves `isUploading` false on every path |
| ChatArea.UiUploadForm | ui/src/components/ChatArea.js:177-202 | the form holds each file once, in order, followed by exactly one metadata part; whatever the request's outcome, the upload ends with `isUploading` false |
| ChatArea.AppUploadForm | app/src/components/ChatArea.js:122-146 | the form holds each selected file once, in index order, and no metadata part; whatever the request's outcome, the upload ends with `isUploading` false |
| UploadModal.ChooseFiles | app/src/components/UploadModal.js:8-11 | newly picked files go after the existing ones, in order, and the metadata is untouched |
| UploadModal.EditField | app/src/components/UploadModal.js:13-17 | an edit changes only the given field of the given pair; the length and every other pair are unchanged |
| UploadModal.AddField | app/src/components/UploadModal.js:19-21 | one blank pair is appended and the earlier pairs are kept |
| UploadModal.Save | app/src/components/UploadModal.js:23-27 | the current files and metadata are handed over; then the files reset to `[]` and the metadata to one blank pair |
| UploadModal.Step | app/src/components/UploadModal.js:113-120 | every user action, with disabled buttons doing nothing, keeps the metadata list non-empty |
| UploadModal.RunKeepsValid | app/src/components/UploadModal.js:5 | from the initial one-pair list, no sequence of actions empties the metadata list |
| SessionLog.Emit | app/src/components/LeftPanel.js:76-84 | the rebuild loop emits a user message then a bot message per entry, with ids counting up from the start id |
| SessionLog.Rebuild | app/src/components/LeftPanel.js:75-85 | a reply of length L ≥ 1 rebuilds to 2(L−1) messages with ids 1…2(L−1). Message 2k is the user's `data[k+1].query` and 2k+1 the bot's `data[k+1].response`; index 0 is ignored |
| SessionLog.RebuildExample | client/src/components/LeftPanel.js:96-106 | a header followed by two turns rebuilds to the four expected messages |
| SessionLog.TurnsOf | tok/main.py:154 | each query/response pair becomes one saved turn, in order |
| SessionLog.ExchangesOfEmit | ui/src/components/LeftPanel.js:76-84 | the conversation can be read back from the emitted messages |
| SessionLog.ReloadRoundTrip | ui/src/components/LeftPanel.js:72-85 | a saved header plus turns, reloaded in the browser, gives back exactly the saved pairs |
| SessionLog.LeadingTurns | app/main.py:383-385 | the number of entries before the first header: every one of them is a turn, and the entry at that index (if any) is a header |
| SessionLog.MemoryFrom | app/main.py:383-385 | memory holds query then response for each of the leading turns, in order, and nothing else; the loop completes exactly when no header stops it (KeyError on a header's missing `query`) |
| SessionLog.MemoryMatchesStore | tok/main.py:214-216 | for a well-formed session, the server memory and the browser store agree position by position on text and on user/assistant role |
| LeftPanel.Select | client/src/components/LeftPanel.js:78-111 | a failed reply changes nothing. A good one selects and stores the handle and replaces the store by the rebuild; only the `client` tree resets `chatStarted` |
| LeftPanel.Restore | app/src/components/LeftPanel.js:26-56 | only a non-empty stored handle triggers a restore; the selection is set before the fetch, and only a good reply replaces the store |
| LeftPanel.NewChat | app/src/components/LeftPanel.js:108-111 | New Chat leaves the store empty, the selection `''` and the stored key removed |
| LeftPanel.NewChatForgets | ui/src/components/LeftPanel.js:123-126 | New Chat leaves no trace of the prior state: a later reload restores nothing |
| LeftPanel.ReloadAfterSelect | ui/src/components/LeftPanel.js:26-85 | after a successful select, a page reload restores the same selection and the same conversation |
| LeftPanel.FlatButtons | client/src/components/LeftPanel.js:141-151 | one button per `[title, handle]` entry, showing the title and dispatching the handle; a button is active exactly when the selection is non-empty and equals its handle |
| LeftPanel.SelectHighlights | client/src/components/LeftPanel.js:146 | when handles are distinct, after selecting one, exactly that button is active |
| LeftPanel.ArrayButtons | app/src/components/LeftPanel.js:130-135 | in the `app` catalog each handle is both the caption and the dispatched value |
| LeftPanel.ButtonsDispatchLookup | ui/src/components/LeftPanel.js:98-110 | the `ui` tree renders one button per key of the title-to-handle object, taken in the object's entry order; each button dispatches what the object holds under its caption |
| LeftPanel.SectionsFrom | ui/src/components/LeftPanel.js:140-165 | every section is a non-empty bucket with its heading and its buttons, in the order Today, Last Week, Last Month, Older |
| LeftPanel.SectionsFromShowsEach | ui/src/components/LeftPanel.js:140-165 | a section appears exactly for each non-empty bucket, and none at all exactly when every bucket is empty |
| LeftPanel.Bucket | ui/src/components/LeftPanel.js:93-96 | a bucket missing from the reply reads as empty |
| LeftPanel.AppSections | app/src/components/LeftPanel.js:93-96 | the empty-state text shows exactly when all four buckets, read with `|| []`, are empty |
| LeftPanel.UiSections | ui/src/components/LeftPanel.js:140 | the empty-state text shows exactly when all four buckets have no keys |
| LeftPanel.SettingsPayload | client/src/components/LeftPanel.js:61-64 | the settings object carries `hf_read_token`, with its value, and nothing else |
| LeftPanel.SettingsPayloadIdempotent | client/src/components/LeftPanel.js:61-70 | submitting the stored settings object again stores and posts the same object |
| SessionStore.SessionNameInjective | app/main.py:233-234 | different numbers name different session files |
| SessionStore.StartNewSession | tok/main.py:100-105 | the new file is `session_{n+1}.json` with n the file count, holding `[]`. It is appended, unless a file of that name exists, which is then overwritten; every other file is unchanged |
| SessionStore.StartNewSessionFresh | server/server.py:47-55 | in a folder numbered 1…n the new session is appended last, and the folder stays numbered |
| SessionStore.StartNewSessionAfterGap | tok/main.py:97-104 | once a file is gone, numbering by count can reuse a live name and empty that session |
| SessionStore.Append | tok/main.py:107-113 | saving appends the entry after the existing ones and leaves every other file unchanged; a missing file fails |
| SessionStore.AppAppend | app/main.py:242-250 | the header date is rewritten only while the session is not marked updated, and then the entry is appended. An empty list not marked updated fails (IndexError) |
| SessionStore.History | tok/main.py:181-190 | the flat history has at most one pair per file |
| SessionStore.HistorySound | tok/main.py:183-189 | every pair of the flat history is the `[title, filename]` of a `.json` file with a non-empty list |
| SessionStore.HistoryComplete | tok/main.py:183-189 | every `.json` file with a non-empty list has its `[title, filename]` in the history |
| SessionStore.HistoryAppend | tok/main.py:181-190 | the listing of a folder is the listing of its first files followed by that of the rest, so files are listed in folder order |
| SessionStore.HistoryOne | tok/main.py:183-189 | a single file is listed as its `[title, filename]` exactly when it is a `.json` file with a non-empty list, otherwise not at all |
| SessionStore.Choosable | server/server.py:159-172 | the file chosen is a listed file of that name; there is none exactly when no non-empty `.json` file has the name |
| SessionStore.Classify | app/main.py:347-354 | a session is filed under Today exactly when its date is today; a date in the future files under Last Week |
| SessionStore.ClassifyByAge | app/main.py:337-354 | by age in days: 0 → Today, 1–6 → Last Week, 7–29 → Last Month, 30 or more → Older |
| SessionStore.ClassifyMonotone | app/main.py:347-354 | among past sessions, an older one is never filed in a fresher bucket |
| SessionStore.FiledFromTail | app/main.py:340-354 | an assignment made while scanning the rest of the folder is one made while scanning the whole folder |
| SessionStore.Filed | app/main.py:340-354 | each bucket receives the title→filename assignment of every listed session whose date falls in it, and only those |
| SessionStore.FiledAppend | app/main.py:340-354 | the assignments into a bucket are made in folder order: those from the first files, then those from the rest |
| SessionStore.FiledOne | app/main.py:341-354 | a single session makes exactly one assignment, into the bucket its date files it under, and none into the others |
| SessionStore.AppHistory | app/main.py:329-355 | a listed session without a dated header fails the request (500). Otherwise the reply has the four named buckets, each a dict of the assignments filed there |
| SessionStore.AppHistoryLookup | app/main.py:348 | a title looked up in a bucket reads the file of the last session with that title, so duplicate titles keep one filename |
| ChatServer.ChooseChatHistory | app/main.py:357-395 | a missing filename gives 400; a file that is not listed gives 404. Otherwise the session becomes current and memory is rebuilt from `[1:]`, and a later header gives 500. `app` also clears `current_session_updated` |
| ChatServer.HistoryNamesChoosable | tok/main.py:181-207 | every name the history lists can be chosen |
| ChatServer.MemoryFromTurns | server/server.py:176-178 | a list of turns rebuilds the memory completely |
| ChatServer.HistoryThenChoose | server/server.py:142-188 | choosing a listed, well-formed session returns its list and rebuilds memory from it |
| ChatServer.NewChat | server/server.py:227-243 | `new_chat` clears the current session and the memory |
| ChatServer.ServerQuery | server/server.py:90-140 | a missing body field gives 500 (KeyError), a null query gives 400, and an engine that is not ready gives 500. Otherwise: the first turn creates and titles a session; `is_new_session` holds exactly when no session was current. An open session's list becomes the old list plus the turn, with every other session unchanged; a first turn adds only the new session, holding the header and the turn; a failure leaves the folder and the current session as they were |
| ChatServer.AppendKeepsNames | server/server.py:59-65 | saving leaves every file name, and so every lookup, as it was |
| ChatServer.SameNamesSameLookup | server/server.py:59-65 | folders with the same names in the same order resolve every name alike |
| ChatServer.OpenWith | server/server.py:123-134 | a first turn creates `session_{n+1}.json` holding exactly the header and then the turn |
| ChatServer.OpenedThenAppended | server/server.py:125-134 | appending to a just-created session gives the session created with the longer list |
| ChatServer.ServerFirstTurn | server/server.py:123-135 | in a numbered folder the first turn appends `[header, turn]` as the next session and reports a new session |
| StreamingQuery.OpenedAsCells | tok/main.py:100-105 | creating a session changes at most the file of that name |
| StreamingQuery.OpenWithConsistent | server/server.py:123-134 | a first turn keeps every session header-first and leaves a non-empty current session |
| StreamingQuery.AppendConsistent | tok/main.py:168 | saving a turn to the current session keeps every session header-first |
| StreamingQuery.ChooseKeepsConsistent | tok/main.py:192-227 | choosing a session and starting a new chat keep every session header-first |
| StreamingQuery.TokQueryAsWritten | tok/main.py:117-179 | as written: the session is created before the title is cut. An answer with no quote leaves a current session holding `[]`, and the stream ends with the error line |
| StreamingQuery.TokQuery | tok/main.py:156-168 | corrected: the title is cut first. An answer with no quote creates nothing and ends the stream with the error line; otherwise the header and then the turn are saved |
| StreamingQuery.TokQueryKeepsConsistent | tok/main.py:154-168 | with the title cut first, every query keeps the back-end consistent, and a query in an open session always appends its turn |
| StreamingQuery.FirstSession | tok/main.py:100-105 | the first session of an empty folder is `session_1.json` |
| StreamingQuery.TokFirstTurnLost | tok/main.py:156-168 | as written, an untitled first turn leaves `session_1.json` empty. The next turn is stored at index 0 as if it were the header, so the history shows no title and both the browser and the server memory skip that turn |
| StreamingQuery.TokTitleFailureAfterOpening | tok/main.py:156-168 | as written, a first turn whose title answer has no quote creates `session_1.json` empty, keeps it current, and ends the stream with the error line |
| StreamingQuery.TokNextTurnTakesHeaderSlot | tok/main.py:154-168 | the next turn into that empty session is saved at index 0, where the header belongs; the history lists it untitled and neither the browser nor the memory shows the turn |
| StreamingQuery.AppAppendWhenUpdated | app/main.py:246-247 | with the session marked updated, `app`'s save is a plain append |
| StreamingQuery.AppQueryAsWritten | app/main.py:257-327 | as written: the plain model path appends the selected prompt to the query. The session is created before the title is cut, and a failed title leaves an empty current session not marked updated |
| StreamingQuery.AppSessionStuck | app/main.py:242-250 | once an empty session is current and not marked updated, every further query ends with the error line and the folder never changes |
| StreamingQuery.AppFailedTitleLeavesEmptySession | app/main.py:302-310 | an untitled first turn leaves `app` in exactly that stuck state |
| StreamingQuery.AppQuery | app/main.py:302-315 | corrected: the title is cut first, and a dated header is written before the turn |
| StreamingQuery.AppQueryKeepsConsistent | app/main.py:302-315 | with the title cut first, `app` stays consistent and a query in an open session always appends its turn |
| StreamingQuery.AppAppendKeepsHeaderFirst | app/main.py:242-250 | `save_to_session` into a non-empty header-first session succeeds, keeps every session header-first, and keeps the session where it was |
| Registry.KindOf | app/main.py:537 | `type == "llm"` picks the LLM list; any other value, or none, picks the embedding list |
| Registry.AppSelect | app/main.py:499-568 | a missing model gives 400. An unknown model is appended to the requested kind's list once per pull progress event that carries a digest (status-only events skip the append); a failed pull answers 500 and keeps those appends. Selecting the current model of that kind answers "already selected" and switches nothing. Otherwise that kind's current model becomes the new one, listed exactly when it was known or some event carried a digest, and the other kind is untouched |
| Registry.AppSelectUnlisted | app/main.py:519-540 | a pull with no digest-carrying event makes the model current without listing it, so selecting it again pulls again and can fail with 500 |
| Registry.AppSelectIdempotent | app/main.py:547-560 | once a selection has listed the model, selecting it again leaves the registry as the first selection did, and the answer is "already selected" |
| Registry.AppDelete | app/main.py:570-615 | a missing model gives 400. Otherwise every copy of the name leaves that kind's list and the other entries stay, in order, and a current model that is deleted falls back to `mistral:instruct` / `mxbai-embed-large:latest`. A failed delete still keeps those changes and answers 500 |
| Registry.AppSelectThenDelete | app/main.py:591-607 | deleting the model just selected restores the kind's default and unlists the name |
| Registry.AppDeleteDefaultStaysCurrent | app/main.py:591-601 | deleting `mistral:instruct` while it is current leaves it current but no longer listed |
| Registry.AppDeleteIdempotent | app/main.py:601-607 | a second delete of the same model changes nothing further |
| Registry.TokSelect | tok/main.py:315-366 | a missing model gives 400; an unlisted model whose pull or relisting fails gives 500; otherwise the current model is the new one. There is no "already selected" check |
| Registry.TokReselectReportsChange | tok/main.py:355-366 | re-selecting the current model reports a change and leaves the registry as it was |
| Registry.TokDelete | tok/main.py:368-400 | a missing model gives 400. Deleting the current model resets it to `mistral:instruct`, also when the delete then fails with 500; on success the list is the runner's new listing |
| Registry.TokSelectThenDelete | tok/main.py:382-383 | deleting the model just selected returns to `mistral:instruct` |
| Metadata.Entries | tok/main.py:249 | each `{key, value}` pair becomes one dictionary entry, in order |
| Metadata.AppMeta | app/main.py:426 | each document's metadata has distinct keys. A key reads the last complete pair's value, where complete means a non-empty key and value; `file_name` reads the file name unless a user pair overrides it |
| Metadata.LastValueKept | app/main.py:426 | a value read from the filtered pairs comes from a complete pair and is never empty |
| Metadata.AppMetaFromCompletePairs | app/main.py:426 | every key of the `app` metadata is `file_name` or the key of a complete pair, and no user value is empty |
| Metadata.TokMeta | tok/main.py:249 | the `tok` metadata takes every pair unfiltered, and later duplicate keys win |
| Metadata.BlankPairOnlyKeptByTok | tok/main.py:249 | the dialog's untouched blank pair reaches `tok` documents as the key `""` but is dropped by `app` |
| Metadata.TokUpload | tok/main.py:229-285 | a missing form part or an empty file list gives 400; a file whose bytes are not UTF-8 makes `decode` raise, answered 500; otherwise each file becomes one document, and all of them carry the same metadata |
| Metadata.AppUpload | app/main.py:397-439 | the same 400 cases apply, and also when no upload that survives in the folder (one with no later upload of the same name) gives the reader a text; otherwise the documents are the reader's for the saved files, file by file |
| Metadata.SaveAll | app/main.py:415-423 | saving the uploads one by one at their own names leaves one file per name, and a name holds the last upload that carried it |
| Metadata.LastValueAbsent | app/main.py:415-423 | a name holds no saved file exactly when no upload carries it |
| Metadata.LatestReadBack | app/main.py:415-423 | an upload that no later upload of the same name overwrites is the file saved under its name |
| Metadata.ReadBackLatest | app/main.py:415-423 | the file saved under a name is an upload of that name that no later upload overwrites |
| Metadata.SavedAreLatest | app/main.py:415-432 | the folder the reader walks holds exactly the uploads that no later upload of the same name overwrites |
| Metadata.DistinctNamesAllSaved | app/main.py:415-432 | uploads with distinct names all reach the reader, in upload order |
| Metadata.SameNameLastWins | app/main.py:415-439 | picking `a.txt` with text "old" and then `a.txt` with text "new" indexes one document, holding "new" |
| Metadata.FileDocs | app/main.py:426-436 | one file gives one document per text the reader extracts from it (one per PDF page, none when it cannot read it), each with the merged metadata under that file's name |
| Metadata.AppDocsEmpty | app/main.py:436-439 | the reader makes no document of a folder's files exactly when it extracts nothing from any of them |
| Metadata.AppDocsAppend | app/main.py:428-436 | the documents for a folder's files are those for its first files followed by those for the rest |
| Metadata.AppDocsOne | app/main.py:426-436 | a single file gives one document per extracted text, in order, named after the file |
| Metadata.AppDocsNamed | app/main.py:426 | every document carries the merged metadata under the name of one of the files read |
| Metadata.SavedFormUploads | app/src/components/UploadModal.js:23-27 | what the enabled save hands over uploads without a 400 exactly when the reader extracts something from some picked file that no later pick of the same name overwrites, and every document gets a `file_name` |
| SettingsModal.AddOrUpdate | app/src/components/SettingsModal.js:73-95 | the draft replaces the first prompt with its label, keeping the length, or is appended. Only the active tab changes, and its draft resets to `{label:'', value:''}` |
| SettingsModal.AddThenFind | app/src/components/SettingsModal.js:75-81 | after add-or-update, the draft's label finds the draft and every other label finds what it found before |
| SettingsModal.EditDraft | app/src/components/SettingsModal.js:58-71 | typing changes only the active tab's draft |
| SettingsModal.Choose | app/src/components/SettingsModal.js:417 | choosing in the selector sets only the active tab's selection |
| SettingsModal.SetAsDefault | app/src/components/SettingsModal.js:97-108 | only the active tab's default changes, to the first prompt whose label equals the selected prompt's label |
| SettingsModal.AddChooseDefault | app/src/components/SettingsModal.js:73-108 | a prompt just added, chosen and set as default becomes the default |
| SettingsModal.Delete | app/src/components/SettingsModal.js:137-160 | only a confirmed delete with an ok reply removes anything. It removes every prompt with that label from the active tab, keeps the others in order, and leaves the draft, selection, default and the other tab as they were |
| SettingsModal.ServerDelete | app/main.py:662-679 | `delete_prompt` removes every prompt whose label equals the body's `label` from the list `type` names, keeps the others in order, and leaves the other list alone. A body without `label` removes nothing |
| SettingsModal.DeleteNotMirrored | app/src/components/SettingsModal.js:146 | the dialog sends the label under `prompt` while the server reads `label`. After a confirmed, successful delete the dialog's list has lost the prompt but the server's has not |

## Left out

- Network, files and storage. `fetch`, Flask routing, JSON encoding, `os.listdir`, file reads and writes, and `sessionStorage` are not modelled as effects. Their results are parameters, and the session folder and the stored key are state fields.
- `current_session` is modelled as a bare file name rather than the `prev_msgs/…` path. The history and `choose_chat_history` compare bare names, so nothing is lost.
- The order in which `os.listdir` returns files is taken to be the folder's order.
- Streaming byte decoding (`TextDecoder`): chunks arrive as decoded strings.
- The polling wait in `handleModelChange` and other concurrency, including interleaved React state updates.
- ChatArea.ModelChange: with a send in flight, the wait re-reads a stale `isSending` and never resolves. This is modelled as "no request, nothing changes" rather than as a hang.
- The Ollama, llama_index and Neo4j machinery is not modelled. The model's answer, the title completion (after `strip()`), the pull, delete and list outcomes, and whether an engine is ready are all parameters.
- Pull progress bars are not modelled; only how many progress events carry a digest is, since each of those appends the name once.
- StreamingQuery.AppQueryAsWritten, StreamingQuery.AppQuery, StreamingQuery.TokQueryAsWritten, StreamingQuery.TokQuery, ChatServer.ServerQuery: the chat engine's own writes to `memory` are not modelled. Only the routes' `memory.put` calls are, so in engine mode the stated memory is the route's view of it.
- StreamingQuery.TokQueryAsWritten, StreamingQuery.TokQuery, StreamingQuery.AppQueryAsWritten, StreamingQuery.AppQuery: the model's stream is given whole. A stream that raises part-way is not modelled; the route then sends the chunks so far plus the error line and saves nothing.
- ChatServer.ChooseChatHistory, ChatServer.NewChat: an engine is assumed to be buildable. With no vector index, `as_chat_engine` raises and the route answers 500 after `current_session` and `memory` have already changed; the model does not give that 500.
- `load_models` start-up pulls, `start_services` / `cleanup` subprocesses, settings sliders, `parseFloat` and temperature (floating point) are not modelled.
- Dates are integer day numbers.
- SessionStore.AppAppend writes the day number, not `str(datetime.now())`.
- ChatServer.ChooseChatHistory: in `app`, `current_session_updated` is cleared unconditionally. The source compares the stored date string with `str(datetime.now())`, which carries microseconds and never matches.
- SessionStore.AppAppend: a turn at index 0 keeps its content. In Python the date is added to that dict, but `app` never produces such a list.
- SessionLog.QueryShown: the browser reads `data[i].query` of a header as `undefined`; the model uses `""`.
- UploadModal.EditField: `handleMetadataChange` mutates the shared pair object in place. Only the values the state ends up holding are modelled, not React's re-rendering.
- Metadata.AppUpload: the file name passed to the metadata function is the upload's name. The directory reader actually passes its saved path. The order of its walk is taken to be the order in which names were first saved. What the reader extracts from each file is a parameter, and an exception inside the reader (answered 500) is not modelled.
- Metadata.TokUpload: a pair without `key` or `value` is not modelled, because the dialog always sends both.
- LeftPanel.ButtonsDispatchLookup: `Object.keys` lists integer-like keys first, in ascending numeric order, and the other keys after them in insertion order. The model takes the object's entries in the order given, so it does not reorder titles such as `"2024"` ahead of the rest.
- SessionStore.AppHistory: Flask's `jsonify` sorts keys, so the browser receives the bucket names and the titles within each bucket in sorted order. The model gives the reply in the dict's insertion order. Lookups by key, which is all the browser does with the buckets, are unaffected.
- View code (JSX, tooltips, greeting text, styles) is not modelled.
- `update_prompts`, `list_prompts`, settings routes other than the `client` payload, and prompt templates are not modelled.
- The `app` LeftPanel expects buckets of arrays while `app/main.py` returns buckets of title→filename objects. Each side is modelled as written (LeftPanel.AppSections, SessionStore.AppHistory), and the two are not reconciled.

## Findings

| source | as written | input that shows it | evidently intended | confidence | as-written member | corrected member |
|---|---|---|---|---|---|---|
| tok/main.py:156-163 | the session file is created (`start_new_session`) before the title is cut with `split('"')[1]`; when the title answer has no quote, the IndexError leaves the new session current and empty | first query "hi" into an empty folder, title answer `Untitled`: `session_1.json` stays `[]`, and the next turn is saved at index 0, where it is taken for the header, so it vanishes from history, browser and memory | cut the title before creating the session, so a failed title creates nothing and every session starts with its header | high, not executed | StreamingQuery.TokQueryAsWritten, StreamingQuery.TokFirstTurnLost | StreamingQuery.TokQuery, StreamingQuery.TokQueryKeepsConsistent |
| app/main.py:302-310 | the same order, and `save_to_session` then writes `session_data[0]["date"]` while `current_session_updated` is false | first query into an empty folder with a title answer lacking quotes: every later query raises IndexError on the empty current session and only streams the error line; nothing is saved until New Chat or the choice of another session makes a non-empty session current | cut the title first, so no empty session becomes current | high, not executed | StreamingQuery.AppQueryAsWritten, StreamingQuery.AppFailedTitleLeavesEmptySession | StreamingQuery.AppQuery, StreamingQuery.AppQueryKeepsConsistent |

=== FILE: chat_area.dfy ===
/** The chat pane of the `ui` and `app` front-end trees: submitting a query
    and streaming its answer into the message store, the model picker of
    the `ui` tree, the "latest message" marker of the `app` tree, and the
    multipart form each tree builds for an upload. */
module ChatArea {
  import opened Wrappers
  import opened Text
  import opened Messages
  import opened UploadModal

  /** `ui/src/components/ChatArea.js` or `app/src/components/ChatArea.js`. */
  datatype Variant = Ui | App

  /** What `/api/query` delivered, already decoded to text: refused before
      any body (the fetch rejected or the status was not ok), or the chunks
      read until the stream ended (`finished`) or a read failed. */
  datatype Reply = Refused | Streamed(chunks: seq<string>, finished: bool)

  /** The component state a submit touches; `chatStarted` belongs to the
      `app` tree and the `ui` tree never changes it. */
  datatype ChatState = ChatState(messages: seq<Message>, sending: bool, input: string, chatStarted: bool)

  /** The store once the user turn and the empty bot placeholder are in,
      before the first chunk: ids `length + 1` and `length + 2`, both taken
      from the length before the submit. */
  function Opened(ms: seq<Message>, query: string): (r: seq<Message>)
    ensures |r| == |ms| + 2 && r[..|ms|] == ms
    ensures forall i :: 0 <= i < |ms| ==> r[i] == ms[i]
    ensures r[|ms|] == Message(|ms| + 1, User, query)
    ensures r[|ms| + 1] == Message(|ms| + 2, Bot, "")
    ensures WellNumbered(ms) ==> WellNumbered(r)
  {
    ms + [Message(|ms| + 1, User, query), Message(|ms| + 2, Bot, "")]
  }

  /** The store after a refused query: the user turn stays, no placeholder
      is added. */
  function AfterRefusal(ms: seq<Message>, query: string): (r: seq<Message>)
    ensures |r| == |ms| + 1 && r[..|ms|] == ms
    ensures r[|ms|] == Message(|ms| + 1, User, query)
    ensures WellNumbered(ms) ==> WellNumbered(r)
  {
    ms + [Message(|ms| + 1, User, query)]
  }

  /** The store after the stream: the placeholder (id `length + 2`) holds
      the chunks read, in order; only messages carrying that id change. */
  function AfterStream(ms: seq<Message>, query: string, chunks: seq<string>): (r: seq<Message>)
    ensures |r| == |ms| + 2
    ensures r[|ms|] == Message(|ms| + 1, User, query)
    ensures r[|ms| + 1] == Message(|ms| + 2, Bot, Concat(chunks))
    ensures forall i :: 0 <= i < |ms| && ms[i].id != |ms| + 2 ==> r[i] == ms[i]
    ensures WellNumbered(ms) ==> WellNumbered(r) && r[..|ms|] == ms
  {
    StreamShape(ms, query, chunks);
    if WellNumbered(ms) then
      StreamKeepsNumbering(ms, query, chunks);
      ApplyChunks(Opened(ms, query), |ms| + 2, "", chunks)
    else
      ApplyChunks(Opened(ms, query), |ms| + 2, "", chunks)
  }

  /** The stream keeps the user turn, fills the placeholder with the
      concatenated chunks, and leaves every other earlier message alone. */
  lemma StreamShape(ms: seq<Message>, query: string, chunks: seq<string>)
    ensures var r := ApplyChunks(Opened(ms, query), |ms| + 2, "", chunks);
      |r| == |ms| + 2 &&
      r[|ms|] == Message(|ms| + 1, User, query) &&
      r[|ms| + 1] == Message(|ms| + 2, Bot, Concat(chunks)) &&
      forall i :: 0 <= i < |ms| && ms[i].id != |ms| + 2 ==> r[i] == ms[i]
  {
    var started := Opened(ms, query);
    StreamFillsPlaceholder(started, |ms| + 2, chunks, |ms| + 1);
  }

  /** On a well-numbered store the stream only writes the placeholder, so
      the earlier messages and the numbering survive. */
  lemma StreamKeepsNumbering(ms: seq<Message>, query: string, chunks: seq<string>)
    requires WellNumbered(ms)
    ensures var r := ApplyChunks(Opened(ms, query), |ms| + 2, "", chunks);
      WellNumbered(r) && r[..|ms|] == ms
  {
    var n := |ms|;
    var started := Opened(ms, query);
    var r := ApplyChunks(started, n + 2, "", chunks);
    forall i | 0 <= i < |r|
      ensures r[i].id == i + 1
    {
      assert started[i].id == i + 1;
    }
    forall i | 0 <= i < n
      ensures r[i] == ms[i]
    {
      assert started[i] == ms[i] && started[i].id != n + 2;
    }
  }

  /** `handleSubmit`, from the click to the end of the stream. */
  function Submit(v: Variant, st: ChatState, reply: Reply): (r: ChatState)
    ensures Trim(st.input) == [] ==> r == st
    ensures Trim(st.input) != [] ==> !r.sending && r.input == ""
    ensures Trim(st.input) != [] ==>
      && |r.messages| == |st.messages| + (if reply.Refused? then 1 else 2)
      && r.messages[|st.messages|] == Message(|st.messages| + 1, User, Trim(st.input))
    ensures Trim(st.input) != [] && reply.Streamed? ==>
      r.messages[|st.messages| + 1] == Message(|st.messages| + 2, Bot, Concat(reply.chunks))
    ensures Trim(st.input) != [] ==> forall i :: 0 <= i < |st.messages| && st.messages[i].id != |st.messages| + 2 ==>
      r.messages[i] == st.messages[i]
    ensures WellNumbered(st.messages) ==> WellNumbered(r.messages) && r.messages[..|st.messages|] == st.messages
    ensures v == Ui ==> r.chatStarted == st.chatStarted
    ensures v == App ==> r.chatStarted == (st.chatStarted || (Trim(st.input) != [] && reply.Streamed? && reply.finished))
  {
    var query := Trim(st.input);
    if query == [] then st
    else
      match reply
      case Refused =>
        ChatState(AfterRefusal(st.messages, query), false, "", st.chatStarted)
      case Streamed(chunks, finished) =>
        ChatState(AfterStream(st.messages, query, chunks), false, "", if v == App && finished then true else st.chatStarted)
  }

  lemma HelloIsTrimmed()
    ensures Trim("hello") == "hello"
  {
    TrimUntrimmable("hello");
  }

  /** The example of a first exchange: "hello" into an empty store ends
      with the user turn and the bot turn holding the whole reply. */
  lemma FirstExchange(chunks: seq<string>, v: Variant, started: bool)
    ensures Submit(v, ChatState([], false, "hello", started), Streamed(chunks, true)).messages
      == [Message(1, User, "hello"), Message(2, Bot, Concat(chunks))]
  {
    HelloIsTrimmed();
    var ms := Submit(v, ChatState([], false, "hello", started), Streamed(chunks, true)).messages;
    assert |ms| == 2 && ms[0] == Message(1, User, "hello") && ms[1] == Message(2, Bot, Concat(chunks));
  }

  /** The `app` tree's `is-latest` class: one flag per rendered message. */
  function LatestMarks(chatStarted: bool, ms: seq<Message>): (marks: seq<bool>)
    ensures |marks| == |ms|
    ensures forall i :: 0 <= i < |ms| ==> (marks[i] <==> chatStarted && ms[i].id == |ms|)
    ensures WellNumbered(ms) ==> forall i :: 0 <= i < |ms| ==> (marks[i] <==> chatStarted && i == |ms| - 1)
  {
    seq(|ms|, i requires 0 <= i < |ms| => chatStarted && ms[i].id == |ms|)
  }

  // ---- model picker (`ui` tree) ----

  /** A react-select option `{ value, label }`: `value` carries the model
      kind, `label` the model name. */
  datatype ModelOption = ModelOption(kind: string, name: string)

  /** The body of `/api/list_models`. */
  datatype Listing = Listing(llm: seq<string>, embed: seq<string>, selectedModel: Option<string>, selectedEmbedModel: Option<string>)

  datatype Picker = Picker(
    models: seq<ModelOption>,
    embedModels: seq<ModelOption>,
    selectedModel: string,
    selectedEmbedModel: string,
    sending: bool)

  /** The picker before the first listing arrives; note its options carry
      the model name, not the kind, as their kind. */
  const InitialPicker := Picker(
    [ModelOption("mistral:instruct", "mistral:instruct")],
    [ModelOption("mxbai-embed-large", "mxbai-embed-large")],
    "mistral:instruct", "mxbai-embed-large", false)

  function Options(kind: string, names: seq<string>): (r: seq<ModelOption>)
    ensures |r| == |names|
    ensures forall i :: 0 <= i < |names| ==> r[i] == ModelOption(kind, names[i])
  {
    seq(|names|, i requires 0 <= i < |names| => ModelOption(kind, names[i]))
  }

  /** `fetchModels`: a listing replaces both option lists and both
      selections (`|| ''` for a missing one); a failed fetch changes
      nothing. */
  function Refresh(p: Picker, listing: Option<Listing>): (r: Picker)
    ensures listing.None? ==> r == p
    ensures listing.Some? ==>
      && r.models == Options("llm", listing.value.llm)
      && r.embedModels == Options("embed", listing.value.embed)
      && r.selectedModel == listing.value.selectedModel.GetOr("")
      && r.selectedEmbedModel == listing.value.selectedEmbedModel.GetOr("")
    ensures r.sending == p.sending
  {
    match listing
    case None => p
    case Some(l) =>
      Picker(Options("llm", l.llm), Options("embed", l.embed),
        l.selectedModel.GetOr(""), l.selectedEmbedModel.GetOr(""), p.sending)
  }

  /** The body posted to `/api/select_model`. */
  datatype SelectRequest = SelectRequest(model: string, kind: string)

  datatype Switch = Switch(picker: Picker, request: Option<SelectRequest>)

  /** `handleModelChange(option)`, given whether the select request
      succeeded and what the following listing returned. A cleared picker
      (null option) does nothing. When a send is in flight the polling wait
      re-reads the `isSending` value captured when the handler was made, so
      it never resolves: no request is issued and nothing changes. */
  function ModelChange(p: Picker, choice: Option<ModelOption>, selectOk: bool, listing: Option<Listing>): (r: Switch)
    ensures r.request.Some? <==> choice.Some? && !p.sending
    ensures r.request.None? ==> r.picker == p
    ensures r.request.Some? ==> r.request.value == SelectRequest(choice.value.name, choice.value.kind)
    ensures r.request.Some? ==> !r.picker.sending
    ensures r.request.Some? && !selectOk ==> r.picker == p.(sending := false)
    ensures r.request.Some? && selectOk ==> r.picker == Refresh(p, listing).(sending := false)
  {
    match choice
    case None => Switch(p, None)
    case Some(o) =>
      if p.sending then Switch(p, None)
      else
        var request := SelectRequest(o.name, o.kind);
        var busy := p.(sending := true);
        if selectOk then Switch(Refresh(busy, listing).(sending := false), Some(request))
        else Switch(busy.(sending := false), Some(request))
  }

  // ---- upload form ----

  /** One part of the multipart body: a `files` part or the `metadata`
      part holding the JSON-encoded pair list. */
  datatype Part = FilePart(file: FileBlob) | MetadataPart(metadata: seq<MetaField>)

  /** The `files` parts of a form, in order. */
  function FilesIn(form: seq<Part>): seq<FileBlob> {
    if form == [] then []
    else (if form[0].FilePart? then [form[0].file] else []) + FilesIn(form[1..])
  }

  function MetadataParts(form: seq<Part>): nat {
    if form == [] then 0 else (if form[0].MetadataPart? then 1 else 0) + MetadataParts(form[1..])
  }

  lemma {:induction false} FormAppend(a: seq<Part>, b: seq<Part>)
    ensures FilesIn(a + b) == FilesIn(a) + FilesIn(b)
    ensures MetadataParts(a + b) == MetadataParts(a) + MetadataParts(b)
    decreases |a|
  {
    if a == [] {
      assert a + b == b;
    } else {
      assert (a + b)[0] == a[0] && (a + b)[1..] == a[1..] + b;
      FormAppend(a[1..], b);
      var head := if a[0].FilePart? then [a[0].file] else [];
      assert FilesIn(a + b) == head + (FilesIn(a[1..]) + FilesIn(b));
      assert head + (FilesIn(a[1..]) + FilesIn(b)) == (head + FilesIn(a[1..])) + FilesIn(b);
    }
  }

  /** How the upload request ends: an answer with its `ok` flag, or a
      rejected `fetch`. */
  datatype FetchOutcome = Answered(ok: bool) | Rejected

  /** What `handleUpload` logs: success, or the error it caught (a non-ok
      answer is thrown and caught like a rejected request). */
  datatype UploadNote = Uploaded | UploadFailed

  /** The upload's ending: the log line and the `isUploading` flag, which
      `finally` clears on every path. */
  method FinishUpload(outcome: FetchOutcome) returns (note: UploadNote, uploading: bool)
    ensures note == Uploaded <==> outcome == Answered(true)
    ensures !uploading
  {
    uploading := true;
    if outcome == Answered(true) {
      note := Uploaded;
    } else {
      note := UploadFailed;
    }
    uploading := false;
  }

  /** `ui` `handleUpload(files, metadata)`: every file once, in order, then
      exactly one metadata part; the upload ends with `isUploading` false
      whatever the request's outcome. */
  method UiUploadForm(files: seq<FileBlob>, metadata: seq<MetaField>, outcome: FetchOutcome)
    returns (form: seq<Part>, note: UploadNote, uploading: bool)
    ensures |form| == |files| + 1
    ensures FilesIn(form) == files && MetadataParts(form) == 1
    ensures form[|files|] == MetadataPart(metadata)
    ensures note == Uploaded <==> outcome == Answered(true)
    ensures !uploading
  {
    uploading := true;
    form := [];
    var i := 0;
    while i < |files|
      invariant 0 <= i <= |files| && |form| == i
      invariant FilesIn(form) == files[..i] && MetadataParts(form) == 0
    {
      FormAppend(form, [FilePart(files[i])]);
      form := form + [FilePart(files[i])];
      i := i + 1;
    }
    FormAppend(form, [MetadataPart(metadata)]);
    form := form + [MetadataPart(metadata)];
    note, uploading := FinishUpload(outcome);
  }

  /** `app` `handleUpload(e)`: every selected file once, in index order, and
      no metadata part; the upload ends with `isUploading` false whatever
      the request's outcome. */
  method AppUploadForm(files: seq<FileBlob>, outcome: FetchOutcome)
    returns (form: seq<Part>, note: UploadNote, uploading: bool)
    ensures |form| == |files|
    ensures FilesIn(form) == files && MetadataParts(form) == 0
    ensures note == Uploaded <==> outcome == Answered(true)
    ensures !uploading
  {
    uploading := true;
    form := [];
    var i := 0;
    while i < |files|
      invariant 0 <= i <= |files| && |form| == i
      invariant FilesIn(form) == files[..i] && MetadataParts(form) == 0
    {
      FormAppend(form, [FilePart(files[i])]);
      form := form + [FilePart(files[i])];
      i := i + 1;
    }
    assert files[..i] == files;
    note, uploading := FinishUpload(outcome);
  }
}

=== FILE: chat_server.dfy ===
/** The session routes the three Python back-ends share: the globals they
    keep between requests, `choose_chat_history`, `new_chat`, and the
    non-streaming `query` of `server/server.py`. Model answers (the reply,
    the title completion) arrive as parameters. */
module ChatServer {
  import opened Wrappers
  import opened SessionLog
  import opened SessionStore
  import opened Titles
  import Ordered

  /** Which back-end: `tok/main.py`, `server/server.py` or `app/main.py`. */
  datatype Backend = TokTree | ServerTree | AppTree

  /** The globals a request reads and writes: the session folder,
      `current_session` (a file name), the chat memory and, read and
      written by `app` only, `current_session_updated`. */
  datatype State = State(folder: seq<SessionFile>, current: Option<string>, memory: seq<ChatMessage>, updated: bool)

  /** A field of a request's JSON body: missing, `null`, or a value. */
  datatype Field<+T> = Absent | Null | Given(value: T)

  /** Python truthiness of a flag: `null` counts as false. */
  predicate Truthy(f: Field<bool>) {
    f.Given? && f.value
  }

  /** A route's new globals and its reply (a body or an error status). */
  datatype Served<+T> = Served(state: State, reply: Result<T, int>)

  /** The session list a good `choose_chat_history` request returns. */
  function ChooseChatHistory(b: Backend, s: State, filename: Field<string>): (r: Served<seq<Entry>>)
    ensures r.state.folder == s.folder
    ensures !filename.Given? ==> r == Served(s, Failure(400))
    ensures filename.Given? && Choosable(s.folder, filename.value).None? ==> r == Served(s, Failure(404))
    ensures filename.Given? && Choosable(s.folder, filename.value).Some? ==> r.state.current == Some(filename.value)
    ensures r.reply.Success? ==> filename.Given? && Choosable(s.folder, filename.value).Some?
    ensures r.reply.Success? ==> var log := s.folder[Choosable(s.folder, filename.value).value].log;
      r.reply.value == log && Memory(log).complete && r.state.memory == Memory(log).memory
    ensures r.reply.Success? ==> r.state.updated == (b != AppTree && s.updated)
    ensures r.reply.Failure? ==> r.reply.error in {400, 404, 500}
  {
    match filename
    case Absent => Served(s, Failure(400))
    case Null => Served(s, Failure(400))
    case Given(name) =>
      match Choosable(s.folder, name)
      case None => Served(s, Failure(404))
      case Some(i) =>
        var log := s.folder[i].log;
        var chosen := s.(current := Some(name));
        if b == AppTree && DateOf(log[0]).None? then
          // `current_session_data[0]["date"]` raises after the selection
          Served(chosen, Failure(500))
        else
          var marked := if b == AppTree then chosen.(updated := false) else chosen;
          var rebuilt := Memory(log);
          var loaded := marked.(memory := rebuilt.memory);
          if rebuilt.complete then Served(loaded, Success(log)) else Served(loaded, Failure(500))
  }

  /** Index 0 holds the header and every later entry is a turn. */
  predicate HeaderFirst(log: seq<Entry>) {
    log == [] || (log[0].Header? && forall k :: 1 <= k < |log| ==> log[k].Turn?)
  }

  /** Every session the history lists can be opened by its name. */
  lemma HistoryNamesChoosable(folder: seq<SessionFile>, k: nat)
    requires k < |History(folder)|
    ensures Choosable(folder, History(folder)[k].1).Some?
  {
    HistorySound(folder);
    var i :| 0 <= i < |folder| && Listed(folder[i]) && History(folder)[k] == Listing(folder[i]);
    assert folder[i].name == History(folder)[k].1;
  }

  /** A list of turns rebuilds the memory completely. */
  lemma MemoryFromTurns(es: seq<Entry>)
    requires forall k :: 0 <= k < |es| ==> es[k].Turn?
    ensures MemoryFrom(es).complete
  {
  }

  /** Opening a listed session whose list is well formed (and, in `app`,
      whose header is dated) answers with that list. */
  lemma HistoryThenChoose(b: Backend, s: State, k: nat)
    requires k < |History(s.folder)|
    ensures var name := History(s.folder)[k].1;
      Choosable(s.folder, name).Some? &&
      var log := s.folder[Choosable(s.folder, name).value].log;
      (HeaderFirst(log) && (b == AppTree ==> DateOf(log[0]).Some?) ==>
        ChooseChatHistory(b, s, Given(name)).reply == Success(log))
  {
    var name := History(s.folder)[k].1;
    HistoryNamesChoosable(s.folder, k);
    var log := s.folder[Choosable(s.folder, name).value].log;
    if HeaderFirst(log) {
      MemoryFromTurns(log[1..]);
    }
  }

  /** `new_chat`: no current session and an empty memory; `app` also
      clears `current_session_updated`. */
  function NewChat(b: Backend, s: State): (r: State)
    ensures r.folder == s.folder && r.current.None? && r.memory == []
    ensures r.updated == (b != AppTree && s.updated)
  {
    State(s.folder, None, [], if b == AppTree then false else s.updated)
  }

  /** The reply of the non-streaming `query`: the answer and whether this
      request opened the session. */
  datatype Answered = Answered(response: string, isNewSession: bool)

  /** `query` of `server/server.py` once the model has answered
      `response` and, for a first turn, the title completion `titled`.
      `data['query']` and `data['useQueryEngine']` raise (status 500)
      when missing; a `null` query is refused with 400; an uninitialised
      engine with 500. The query goes into memory, and on the plain model
      path the answer too. A first turn opens a session whose header holds
      the title cut out by find-slicing, before the turn is saved. */
  function ServerQuery(s: State, query: Field<string>, useEngine: Field<bool>, ready: bool, response: string, titled: string): (r: Served<Answered>)
    ensures query.Absent? || useEngine.Absent? ==> r == Served(s, Failure(500))
    ensures query.Null? && !useEngine.Absent? ==> r == Served(s, Failure(400))
    ensures query.Given? && !useEngine.Absent? && !ready ==> r == Served(s, Failure(500))
    ensures r.reply.Success? ==> r.reply.value == Answered(response, s.current.None?)
    ensures r.reply.Success? ==> r.state.current.Some? && (s.current.Some? ==> r.state.current == s.current)
    ensures r.reply.Success? ==> query.Given? && !useEngine.Absent? && ready
    ensures r.reply.Success? ==>
      r.state.memory == s.memory + [ChatMessage(UserRole, query.value)] + (if Truthy(useEngine) then [] else [ChatMessage(AssistantRole, response)])
    ensures r.reply.Success? ==> var name := r.state.current.value;
      Locate(r.state.folder, name).Some? &&
      var log := r.state.folder[Locate(r.state.folder, name).value].log;
      |log| >= 1 && log[|log| - 1] == Turn(query.value, response) &&
      (s.current.None? ==> log == [Header(TitleByFind(titled), None), Turn(query.value, response)])
    ensures r.reply.Success? && s.current.Some? ==>
      Append(s.folder, s.current.value, Turn(query.value, response)) == Some(r.state.folder)
    ensures r.reply.Success? && s.current.None? ==>
      r.state.folder == OpenedAs(s.folder, SessionName(|s.folder| + 1), [Header(TitleByFind(titled), None), Turn(query.value, response)])
    ensures r.reply.Failure? ==> r.state.folder == s.folder && r.state.current == s.current
  {
    if query.Absent? || useEngine.Absent? then Served(s, Failure(500))
    else if query.Null? then Served(s, Failure(400))
    else if !ready then Served(s, Failure(500))
    else
      var q := query.value;
      var remembered := s.memory + [ChatMessage(UserRole, q)] +
        (if Truthy(useEngine) then [] else [ChatMessage(AssistantRole, response)]);
      var turn := Turn(q, response);
      match s.current
      case None =>
        var created := OpenWith(s.folder, Header(TitleByFind(titled), None), turn);
        Served(State(created.folder, Some(created.name), remembered, s.updated), Success(Answered(response, true)))
      case Some(name) =>
        match Append(s.folder, name, turn)
        case None => Served(s.(memory := remembered), Failure(500))
        case Some(saved) =>
          AppendKeepsNames(s.folder, name, turn);
          Served(s.(folder := saved, memory := remembered), Success(Answered(response, false)))
  }

  /** Appending leaves every name, and so every lookup, as it was. */
  lemma AppendKeepsNames(folder: seq<SessionFile>, name: string, data: Entry)
    requires Locate(folder, name).Some?
    ensures forall n :: Locate(Append(folder, name, data).value, n) == Locate(folder, n)
  {
    var saved := Append(folder, name, data).value;
    assert forall j :: 0 <= j < |saved| ==> saved[j].name == folder[j].name;
    forall n ensures Locate(saved, n) == Locate(folder, n) {
      SameNamesSameLookup(folder, saved, n);
    }
  }

  lemma {:induction false} SameNamesSameLookup(a: seq<SessionFile>, b: seq<SessionFile>, n: string)
    requires |a| == |b| && forall j :: 0 <= j < |a| ==> a[j].name == b[j].name
    ensures Locate(a, n) == Locate(b, n)
    decreases |a|
  {
    if a != [] {
      SameNamesSameLookup(a[1..], b[1..], n);
    }
  }

  /** A first turn: `start_new_session()`, then the header, then the
      turn, each appended to the new file. */
  function OpenWith(folder: seq<SessionFile>, header: Entry, turn: Entry): (r: Started)
    ensures r.name == SessionName(|folder| + 1)
    ensures Locate(r.folder, r.name).Some? && r.folder[Locate(r.folder, r.name).value].log == [header, turn]
    ensures r.folder == OpenedAs(folder, r.name, [header, turn])
  {
    var started := StartNewSession(folder);
    var name := started.name;
    assert started.folder == OpenedAs(folder, name, []);
    OpenedThenAppended(folder, name, [], header);
    assert [] + [header] == [header];
    var headed := Append(started.folder, name, header).value;
    assert headed == OpenedAs(folder, name, [header]);
    OpenedThenAppended(folder, name, [header], turn);
    assert [header] + [turn] == [header, turn];
    var saved := Append(headed, name, turn).value;
    assert saved == OpenedAs(folder, name, [header, turn]);
    assert Name(SessionFile(name, [header, turn])) == name;
    Started(saved, name)
  }

  /** The folder after a session named `name` is (re)created holding
      `log`. */
  function OpenedAs(folder: seq<SessionFile>, name: string, log: seq<Entry>): seq<SessionFile> {
    Ordered.Upsert(folder, Name, SessionFile(name, log))
  }

  /** Appending to a just-created session is creating it with the longer
      list. */
  lemma OpenedThenAppended(folder: seq<SessionFile>, name: string, log: seq<Entry>, data: Entry)
    ensures Append(OpenedAs(folder, name, log), name, data) == Some(OpenedAs(folder, name, log + [data]))
  {
    var u := OpenedAs(folder, name, log);
    match Locate(folder, name)
    case Some(j) =>
      assert u == folder[j := SessionFile(name, log)];
      assert forall k :: 0 <= k < j ==> Name(u[k]) == Name(folder[k]) != name;
      assert Name(u[j]) == name;
      assert Locate(u, name) == Some(j);
      assert Name(SessionFile(name, log + [data])) == name;
      assert OpenedAs(folder, name, log + [data]) == folder[j := SessionFile(name, log + [data])];
      assert Append(u, name, data) == Some(u[j := SessionFile(name, log + [data])]);
      assert u[j := SessionFile(name, log + [data])] == folder[j := SessionFile(name, log + [data])];
    case None =>
      assert u == folder + [SessionFile(name, log)];
      assert Locate(u, name) == Some(|folder|);
      assert OpenedAs(folder, name, log + [data]) == folder + [SessionFile(name, log + [data])];
      assert Append(u, name, data) == Some(u[|folder| := SessionFile(name, log + [data])]);
      assert u[|folder| := SessionFile(name, log + [data])] == folder + [SessionFile(name, log + [data])];
  }

  /** In a numbered folder the first turn of a fresh chat creates the next
      numbered file, holding the header and the turn, and leaves every
      other session as it was. */
  lemma ServerFirstTurn(s: State, q: string, useEngine: bool, response: string, titled: string)
    requires s.current.None? && Numbered(s.folder)
    ensures var r := ServerQuery(s, Given(q), Given(useEngine), true, response, titled);
      r.reply == Success(Answered(response, true)) &&
      r.state.folder == s.folder + [SessionFile(SessionName(|s.folder| + 1), [Header(TitleByFind(titled), None), Turn(q, response)])]
  {
    StartNewSessionFresh(s.folder);
  }
}

=== FILE: left_panel.dfy ===
/** The session side panel of the three front-end trees (`app`, `client`,
    `ui`): selecting a past session, restoring the stored selection at
    start-up, starting a new chat, and turning the history catalog into
    session buttons. The panel's slice of browser state is a record;
    server replies arrive as values (`None` for a rejected or non-ok
    fetch). */
module LeftPanel {
  import opened Wrappers
  import opened Messages
  import opened SessionLog
  import Ordered

  datatype Variant = AppPanel | ClientPanel | UiPanel

  /** The message store the panel writes, the highlighted session, the
      `selectedSession` key of `sessionStorage`, and the chat pane's
      `chatStarted` flag (only the `client` tree's panel touches it). */
  datatype Panel = Panel(messages: seq<Message>, selected: string, stored: Option<string>, chatStarted: bool)

  /** `handleSessionSelect(handle)` once `/api/choose_chat_history` has
      answered with `reply`. A failed or non-ok reply is caught and changes
      nothing; a good one selects and persists the handle and replaces the
      whole store by the rebuilt conversation. */
  function Select(v: Variant, p: Panel, handle: string, reply: Option<seq<Entry>>): (r: Panel)
    ensures reply.None? ==> r == p
    ensures reply.Some? ==> r.selected == handle && r.stored == Some(handle) && r.messages == Rebuild(reply.value)
    ensures reply.Some? ==> r.chatStarted == (v != ClientPanel && p.chatStarted)
  {
    match reply
    case None => p
    case Some(data) =>
      Panel(Rebuild(data), handle, Some(handle), if v == ClientPanel then false else p.chatStarted)
  }

  /** `if (storedSession)`: `getItem` yields `null` or a string, and only a
      non-empty string is truthy. */
  predicate Restorable(stored: Option<string>) {
    stored.Some? && stored.value != ""
  }

  /** The start-up effect: with a truthy stored handle the panel selects
      it before fetching, and a good reply replaces the store; a failed
      reply leaves the selection made and the store as it was. Without a
      stored handle nothing happens. */
  function Restore(p: Panel, reply: Option<seq<Entry>>): (r: Panel)
    ensures !Restorable(p.stored) ==> r == p
    ensures Restorable(p.stored) ==> r.selected == p.stored.value && r.stored == p.stored && r.chatStarted == p.chatStarted
    ensures Restorable(p.stored) && reply.None? ==> r.messages == p.messages
    ensures Restorable(p.stored) && reply.Some? ==> r.messages == Rebuild(reply.value)
  {
    if !Restorable(p.stored) then p
    else
      var chosen := p.(selected := p.stored.value);
      match reply
      case None => chosen
      case Some(data) => chosen.(messages := Rebuild(data))
  }

  /** The New Chat button: empty store, no selection, stored key removed;
      the `new_chat` and `history` requests it fires do not touch this
      state. */
  function NewChat(p: Panel): (r: Panel)
    ensures r.messages == [] && r.selected == "" && r.stored.None?
    ensures r.chatStarted == p.chatStarted
  {
    Panel([], "", None, p.chatStarted)
  }

  /** New Chat forgets the previous state entirely: two panels that agree
      on `chatStarted` end identical, and a reload afterwards restores
      nothing. */
  lemma NewChatForgets(p: Panel, q: Panel, reply: Option<seq<Entry>>)
    requires p.chatStarted == q.chatStarted
    ensures NewChat(p) == NewChat(q)
    ensures Restore(NewChat(p), reply) == NewChat(p)
  {
  }

  /** Select then reload: a page reloaded after a successful select (store
      empty, nothing highlighted, `sessionStorage` kept) restores the same
      selection and, given the same reply, the same conversation. */
  lemma ReloadAfterSelect(v: Variant, p: Panel, handle: string, data: seq<Entry>, started: bool)
    requires handle != ""
    ensures var chosen := Select(v, p, handle, Some(data));
      var restored := Restore(Panel([], "", chosen.stored, started), Some(data));
      restored.selected == chosen.selected && restored.messages == chosen.messages
  {
  }

  // ---- the catalog and its buttons ----

  datatype Button = Button(caption: string, target: string, active: bool)

  /** `selectedSession && selectedSession === target`. */
  predicate IsActive(selected: string, target: string) {
    selected != "" && selected == target
  }

  /** The `client` catalog: a flat list of `[title, handle]` pairs, one
      button each, showing the title and dispatching the handle. The `ui`
      tree's `renderSessionButtons(titles)` builds the same buttons from a
      title-to-handle object, taking its keys in order. */
  function FlatButtons(entries: seq<(string, string)>, selected: string): (bs: seq<Button>)
    ensures |bs| == |entries|
    ensures forall i :: 0 <= i < |bs| ==> bs[i].caption == entries[i].0 && bs[i].target == entries[i].1
    ensures forall i :: 0 <= i < |bs| ==> (bs[i].active <==> IsActive(selected, entries[i].1))
  {
    seq(|entries|, i requires 0 <= i < |entries| => Button(entries[i].0, entries[i].1, IsActive(selected, entries[i].1)))
  }

  /** After a successful select of some button's handle, that button and
      exactly the buttons sharing its handle are highlighted; with
      distinct handles, exactly one. */
  lemma SelectHighlights(v: Variant, p: Panel, entries: seq<(string, string)>, k: nat, data: seq<Entry>)
    requires k < |entries| && entries[k].1 != ""
    requires forall i, j :: 0 <= i < j < |entries| ==> entries[i].1 != entries[j].1
    ensures var bs := FlatButtons(entries, Select(v, p, entries[k].1, Some(data)).selected);
      bs[k].active && forall i :: 0 <= i < |bs| && bs[i].active ==> i == k
  {
  }

  /** The `app` catalog: buckets of handle arrays; each handle is both the
      caption and the dispatched value. */
  function ArrayButtons(handles: seq<string>, selected: string): (bs: seq<Button>)
    ensures |bs| == |handles|
    ensures forall i :: 0 <= i < |bs| ==> bs[i] == Button(handles[i], handles[i], IsActive(selected, handles[i]))
  {
    seq(|handles|, i requires 0 <= i < |handles| => Button(handles[i], handles[i], IsActive(selected, handles[i])))
  }

  /** Over a title-to-handle object, every title key yields one button,
      and the button dispatches what the object holds under its caption. */
  lemma ButtonsDispatchLookup(titles: seq<(string, string)>, selected: string)
    requires Ordered.UniqueKeys(titles)
    ensures var bs := FlatButtons(titles, selected);
      forall i :: 0 <= i < |bs| ==> Ordered.Get(titles, bs[i].caption) == Some(bs[i].target)
  {
    var bs := FlatButtons(titles, selected);
    forall i | 0 <= i < |bs| ensures Ordered.Get(titles, bs[i].caption) == Some(bs[i].target) {
      var j := Ordered.IndexOf(titles, Ordered.First, titles[i].0);
      assert j.Some?;
      assert j.value == i;
    }
  }

  /** A rendered bucket: its position in `BucketNames`, its heading and
      its buttons. */
  datatype Section = Section(rank: nat, heading: string, buttons: seq<Button>)

  /** The sections from bucket `k` on: a heading and its buttons for each
      non-empty bucket, in bucket order. */
  function SectionsFrom(k: nat, groups: seq<seq<Button>>): (r: seq<Section>)
    requires |groups| == 4 && k <= 4
    ensures forall a :: 0 <= a < |r| ==>
      k <= r[a].rank < 4 && r[a].heading == BucketNames[r[a].rank] &&
      r[a].buttons == groups[r[a].rank] && r[a].buttons != []
    ensures forall a, b :: 0 <= a < b < |r| ==> r[a].rank < r[b].rank
    decreases 4 - k
  {
    if k == 4 then []
    else
      var rest := SectionsFrom(k + 1, groups);
      if groups[k] == [] then rest
      else
        var r := [Section(k, BucketNames[k], groups[k])] + rest;
        assert forall a :: 1 <= a < |r| ==> r[a] == rest[a - 1];
        r
  }

  /** Every non-empty bucket from `k` on has its section, no empty one
      has, and there are no sections exactly when all those buckets are
      empty. */
  lemma {:induction false} SectionsFromShowsEach(k: nat, groups: seq<seq<Button>>)
    requires |groups| == 4 && k <= 4
    ensures forall i :: k <= i < 4 ==> (groups[i] != [] <==> Section(i, BucketNames[i], groups[i]) in SectionsFrom(k, groups))
    ensures SectionsFrom(k, groups) == [] <==> forall i :: k <= i < 4 ==> groups[i] == []
    decreases 4 - k
  {
    if k < 4 {
      SectionsFromShowsEach(k + 1, groups);
      var rest := SectionsFrom(k + 1, groups);
      var head := Section(k, BucketNames[k], groups[k]);
      if groups[k] == [] {
        assert head !in rest;
      } else {
        assert SectionsFrom(k, groups) == [head] + rest;
        forall i | k < i < 4
          ensures Section(i, BucketNames[i], groups[i]) in SectionsFrom(k, groups) <==> Section(i, BucketNames[i], groups[i]) in rest
        {
          assert Section(i, BucketNames[i], groups[i]) != head;
        }
      }
    }
  }

  /** `sessionTitles[name] || default`: a bucket the reply lacks reads as
      the default. */
  function Bucket<V>(catalog: seq<(string, V)>, name: string, default: V): (b: V)
    ensures Ordered.Get(catalog, name).Some? ==> b == Ordered.Get(catalog, name).value
    ensures Ordered.Get(catalog, name).None? ==> b == default
  {
    Ordered.Get(catalog, name).GetOr(default)
  }

  /** The `app` panel's rendering of a bucket-of-arrays catalog; the
      "No previous sessions found" text shows exactly when it is empty,
      that is when all four buckets are missing or empty. */
  function AppSections(catalog: seq<(string, seq<string>)>, selected: string): (r: seq<Section>)
    ensures r == [] <==> forall i :: 0 <= i < 4 ==> Bucket(catalog, BucketNames[i], []) == []
    ensures forall a :: 0 <= a < |r| ==>
      r[a].rank < 4 && r[a].heading == BucketNames[r[a].rank] &&
      r[a].buttons == ArrayButtons(Bucket(catalog, BucketNames[r[a].rank], []), selected) && r[a].buttons != []
    ensures forall a, b :: 0 <= a < b < |r| ==> r[a].rank < r[b].rank
  {
    var groups := seq(4, i requires 0 <= i < 4 => ArrayButtons(Bucket(catalog, BucketNames[i], []), selected));
    SectionsFromShowsEach(0, groups);
    SectionsFrom(0, groups)
  }

  /** The `ui` panel's rendering of a bucket-of-objects catalog, with the
      same empty-state rule counted in keys. */
  function UiSections(catalog: seq<(string, seq<(string, string)>)>, selected: string): (r: seq<Section>)
    ensures r == [] <==> forall i :: 0 <= i < 4 ==> Bucket(catalog, BucketNames[i], []) == []
    ensures forall a :: 0 <= a < |r| ==>
      r[a].rank < 4 && r[a].heading == BucketNames[r[a].rank] &&
      r[a].buttons == FlatButtons(Bucket(catalog, BucketNames[r[a].rank], []), selected) && r[a].buttons != []
    ensures forall a, b :: 0 <= a < b < |r| ==> r[a].rank < r[b].rank
  {
    var groups := seq(4, i requires 0 <= i < 4 => FlatButtons(Bucket(catalog, BucketNames[i], []), selected));
    SectionsFromShowsEach(0, groups);
    SectionsFrom(0, groups)
  }

  // ---- the client's settings form ----

  /** The `client` settings submit: the object both stored and posted
      carries `hf_read_token` and nothing else (`JSON.stringify` drops the
      key when the token is undefined). */
  function SettingsPayload(settings: seq<(string, string)>): (r: seq<(string, string)>)
    ensures forall i :: 0 <= i < |r| ==> r[i].0 == "hf_read_token"
    ensures Ordered.Get(r, "hf_read_token") == Ordered.Get(settings, "hf_read_token")
    ensures |r| <= 1
  {
    match Ordered.Get(settings, "hf_read_token")
    case None => []
    case Some(token) => [("hf_read_token", token)]
  }

  /** Submitting the stored settings again posts the same object: the
      payload is already in its own shape. */
  lemma SettingsPayloadIdempotent(settings: seq<(string, string)>)
    ensures SettingsPayload(SettingsPayload(settings)) == SettingsPayload(settings)
  {
  }
}

=== FILE: messages.dfy ===
/** The message store shared by every front-end tree: an ordered list of
    chat turns, the map-by-id update a streamed chunk performs, and the
    folding of a whole chunk stream into one bot message. */
module Messages {

  datatype Sender = User | Bot

  datatype Message = Message(id: int, sender: Sender, text: string)

  /** Ids are 1, 2, 3, ... in list order: the numbering the history rebuild
      produces and every submit keeps. */
  predicate WellNumbered(ms: seq<Message>) {
    forall i :: 0 <= i < |ms| ==> ms[i].id == i + 1
  }

  /** `prev.map(msg => msg.id === id ? { ...msg, text } : msg)`: every
      message carrying `id` gets the new text, nothing else changes. */
  function SetText(ms: seq<Message>, id: int, text: string): (r: seq<Message>)
    ensures |r| == |ms|
    ensures forall i :: 0 <= i < |ms| && ms[i].id != id ==> r[i] == ms[i]
    ensures forall i :: 0 <= i < |ms| && ms[i].id == id ==>
      r[i].id == id && r[i].sender == ms[i].sender && r[i].text == text
  {
    if ms == [] then []
    else [if ms[0].id == id then ms[0].(text := text) else ms[0]] + SetText(ms[1..], id, text)
  }

  /** A chunk addressed to an id the store no longer holds (the user
      switched session mid-stream) leaves the store exactly as it was. */
  lemma SetTextAbsentIsNoop(ms: seq<Message>, id: int, text: string)
    requires forall i :: 0 <= i < |ms| ==> ms[i].id != id
    ensures SetText(ms, id, text) == ms
  {
  }

  /** The reference meaning of a stream: its chunks glued in order. */
  function Concat(chunks: seq<string>): string {
    if chunks == [] then "" else chunks[0] + Concat(chunks[1..])
  }

  /** The read loop: `botMessage += chunk` and then the map-by-id update,
      once per chunk, starting from the accumulator `acc`. */
  function ApplyChunks(ms: seq<Message>, id: int, acc: string, chunks: seq<string>): (r: seq<Message>)
    ensures |r| == |ms|
    ensures forall i :: 0 <= i < |ms| && ms[i].id != id ==> r[i] == ms[i]
    ensures forall i :: 0 <= i < |ms| && ms[i].id == id ==>
      && r[i].id == id && r[i].sender == ms[i].sender
      && r[i].text == (if chunks == [] then ms[i].text else acc + Concat(chunks))
    decreases |chunks|
  {
    if chunks == [] then ms
    else
      var acc' := acc + chunks[0];
      assert acc' + Concat(chunks[1..]) == acc + Concat(chunks);
      ApplyChunks(SetText(ms, id, acc'), id, acc', chunks[1..])
  }

  /** Streaming into an empty placeholder leaves it holding exactly the
      concatenation of the chunks, whether or not any chunk arrived. */
  lemma StreamFillsPlaceholder(ms: seq<Message>, id: int, chunks: seq<string>, k: nat)
    requires k < |ms| && ms[k].id == id && ms[k].text == ""
    ensures ApplyChunks(ms, id, "", chunks)[k].text == Concat(chunks)
  {
    if chunks == [] {
      assert Concat(chunks) == "";
    } else {
      assert "" + Concat(chunks) == Concat(chunks);
    }
  }

  /** Concatenating a stream split in two is concatenating each half. */
  lemma {:induction false} ConcatAppend(a: seq<string>, b: seq<string>)
    ensures Concat(a + b) == Concat(a) + Concat(b)
    decreases |a|
  {
    if a == [] {
      assert a + b == b;
    } else {
      assert (a + b)[1..] == a[1..] + b;
      ConcatAppend(a[1..], b);
    }
  }
}

=== FILE: metadata.dfy ===
/** The metadata the two document-upload routes attach to each uploaded
    document, built from the key/value pairs the upload dialog sends. */
module Metadata {
  import opened Wrappers
  import Ordered
  import opened UploadModal

  /** Metadata as an insertion-ordered dictionary. */
  type Meta = seq<(string, string)>

  datatype Document = Document(text: string, metadata: Meta)

  /** The pairs as dictionary entries, in the order sent. */
  function Entries(pairs: seq<MetaField>): (r: Meta)
    ensures |r| == |pairs|
    ensures forall i :: 0 <= i < |pairs| ==> r[i] == (pairs[i].key, pairs[i].value)
  {
    if pairs == [] then [] else [(pairs[0].key, pairs[0].value)] + Entries(pairs[1..])
  }

  /** A pair with an empty key or an empty value. */
  predicate Incomplete(m: MetaField) {
    m.key == "" || m.value == ""
  }

  /** `app`: `file_name` first, then every pair whose key and value are both
      non-empty, later pairs overriding earlier ones. A user key
      `file_name` overrides the file name. */
  function AppMeta(pairs: seq<MetaField>, fileName: string): (r: Meta)
    ensures Ordered.UniqueKeys(r)
    ensures forall k :: Ordered.Get(r, k) == match Ordered.LastValue(Entries(Ordered.RemoveWhere(pairs, Incomplete)), k)
      case Some(v) => Some(v)
      case None => if k == "file_name" then Some(fileName) else None
  {
    var kept := Entries(Ordered.RemoveWhere(pairs, Incomplete));
    var r := Ordered.PutAll([("file_name", fileName)], kept);
    Ordered.PutAllUnique([("file_name", fileName)], kept);
    forall k ensures Ordered.Get(r, k) == match Ordered.LastValue(kept, k)
      case Some(v) => Some(v)
      case None => if k == "file_name" then Some(fileName) else None
    {
      Ordered.PutAllGet([("file_name", fileName)], kept, k);
    }
    r
  }

  /** A value read back from the filtered pairs comes from a complete pair,
      so it is never empty. */
  lemma {:induction false} LastValueKept(pairs: seq<MetaField>, k: string)
    ensures Ordered.LastValue(Entries(Ordered.RemoveWhere(pairs, Incomplete)), k).Some? ==>
      exists i :: 0 <= i < |pairs| && pairs[i].key == k && !Incomplete(pairs[i])
    ensures Ordered.LastValue(Entries(Ordered.RemoveWhere(pairs, Incomplete)), k) != Some("")
    decreases |pairs|
  {
    if pairs != [] {
      LastValueKept(pairs[1..], k);
      var rest := Ordered.RemoveWhere(pairs[1..], Incomplete);
      var kept := Ordered.RemoveWhere(pairs, Incomplete);
      if !Incomplete(pairs[0]) {
        assert kept == [pairs[0]] + rest;
        assert Entries(kept)[1..] == Entries(rest);
      } else {
        assert kept == rest;
      }
    }
  }

  /** A key in the `app` metadata is `file_name` or a key some complete pair
      carries, and no value read from a user pair is empty. */
  lemma AppMetaFromCompletePairs(pairs: seq<MetaField>, fileName: string, k: string)
    ensures Ordered.Get(AppMeta(pairs, fileName), k).Some? ==>
      k == "file_name" || exists i :: 0 <= i < |pairs| && pairs[i].key == k && !Incomplete(pairs[i])
    ensures k != "file_name" ==> Ordered.Get(AppMeta(pairs, fileName), k) != Some("")
  {
    LastValueKept(pairs, k);
  }

  /** `tok`: every pair, unfiltered, later duplicates winning. */
  function TokMeta(pairs: seq<MetaField>): (r: Meta)
    ensures Ordered.UniqueKeys(r)
    ensures forall k :: Ordered.Get(r, k) == Ordered.LastValue(Entries(pairs), k)
  {
    var r := Ordered.PutAll([], Entries(pairs));
    Ordered.PutAllUnique([], Entries(pairs));
    forall k ensures Ordered.Get(r, k) == Ordered.LastValue(Entries(pairs), k) {
      Ordered.PutAllGet([], Entries(pairs), k);
    }
    r
  }

  /** The dialog's untouched blank pair reaches the `tok` documents as the
      key `""`, while the `app` route drops it. */
  lemma BlankPairOnlyKeptByTok(fileName: string)
    ensures Ordered.Get(TokMeta([Blank]), "") == Some("")
    ensures Ordered.Get(AppMeta([Blank], fileName), "") == None
  {
    assert Entries([Blank]) == [("", "")];
    assert [("", "")][1..] == [];
    assert Ordered.LastValue([("", "")], "") == Some("");
    assert Ordered.RemoveWhere([Blank], Incomplete) == [];
  }

  /** `tok` `add_new_documents`; `files` and `metadata` are `None` when the
      form lacks that part, and `utf8` tells whether a file's bytes decode
      as UTF-8 (its text is then `content`). A missing part or an empty
      file list answers 400; a file that does not decode raises inside the
      handler, which answers 500; otherwise every file becomes one
      document, all carrying the same dictionary. */
  function TokUpload(files: Option<seq<FileBlob>>, metadata: Option<seq<MetaField>>, utf8: FileBlob -> bool): (r: Result<seq<Document>, int>)
    ensures files.None? || metadata.None? || files == Some([]) <==> r == Failure(400)
    ensures files.Some? && metadata.Some? && files.value != [] ==>
      (r == Failure(500) <==> exists i :: 0 <= i < |files.value| && !utf8(files.value[i]))
    ensures r.Success? ==> |r.value| == |files.value|
    ensures r.Success? ==> forall i :: 0 <= i < |r.value| ==>
      r.value[i] == Document(files.value[i].content, TokMeta(metadata.value))
  {
    if files.None? || metadata.None? || files.value == [] then Failure(400)
    else if exists i :: 0 <= i < |files.value| && !utf8(files.value[i]) then Failure(500)
    else
      var meta := TokMeta(metadata.value);
      Success(seq(|files.value|, i requires 0 <= i < |files.value| => Document(files.value[i].content, meta)))
  }

  /** The metadata function the route hands the reader, applied to one
      file's name. */
  function MetaFor(pairs: seq<MetaField>, name: string): Meta {
    AppMeta(pairs, name)
  }

  /** The reader's documents for one file: one per text it extracts. */
  function FileDocs(f: FileBlob, pages: FileBlob -> seq<string>, pairs: seq<MetaField>): (docs: seq<Document>)
    ensures |docs| == |pages(f)|
    ensures forall j :: 0 <= j < |docs| ==> docs[j] == Document(pages(f)[j], MetaFor(pairs, f.name))
  {
    seq(|pages(f)|, j requires 0 <= j < |pages(f)| => Document(pages(f)[j], MetaFor(pairs, f.name)))
  }

  /** The documents the directory reader makes of the saved files, in
      order: one per text `pages` gives for a file (one per page of a PDF,
      none for a file it cannot read), each with the merged metadata under
      that file's name. */
  function AppDocs(files: seq<FileBlob>, pages: FileBlob -> seq<string>, pairs: seq<MetaField>): seq<Document> {
    if files == [] then [] else FileDocs(files[0], pages, pairs) + AppDocs(files[1..], pages, pairs)
  }

  /** The reader makes no document exactly when it extracts nothing from
      any file. */
  lemma {:induction false} AppDocsEmpty(files: seq<FileBlob>, pages: FileBlob -> seq<string>, pairs: seq<MetaField>)
    ensures AppDocs(files, pages, pairs) == [] <==> forall i :: 0 <= i < |files| ==> pages(files[i]) == []
    decreases |files|
  {
    if files != [] {
      AppDocsEmpty(files[1..], pages, pairs);
      assert forall i :: 1 <= i < |files| ==> files[i] == files[1..][i - 1];
    }
  }

  /** Every document the reader makes carries the merged metadata under
      the name of one of the files. */
  lemma {:induction false} AppDocsNamed(files: seq<FileBlob>, pages: FileBlob -> seq<string>, pairs: seq<MetaField>)
    ensures forall k :: 0 <= k < |AppDocs(files, pages, pairs)| ==>
      exists i :: 0 <= i < |files| && AppDocs(files, pages, pairs)[k].metadata == MetaFor(pairs, files[i].name)
    decreases |files|
  {
    if files != [] {
      var tail := files[1..];
      AppDocsNamed(tail, pages, pairs);
      var head := FileDocs(files[0], pages, pairs);
      var rest := AppDocs(tail, pages, pairs);
      var docs := AppDocs(files, pages, pairs);
      assert docs == head + rest;
      forall k | 0 <= k < |docs|
        ensures exists i :: 0 <= i < |files| && docs[k].metadata == MetaFor(pairs, files[i].name)
      {
        if k < |head| {
          assert docs[k] == head[k];
          assert docs[k].metadata == MetaFor(pairs, files[0].name);
        } else {
          assert docs[k] == rest[k - |head|];
          assert 0 <= k - |head| < |rest|;
          var i :| 0 <= i < |tail| && rest[k - |head|].metadata == MetaFor(pairs, tail[i].name);
          assert tail[i] == files[i + 1];
        }
      }
    } else {
      assert AppDocs(files, pages, pairs) == [];
    }
  }

  /** The reader's documents for a list of files are those for its first
      files followed by those for the rest. */
  lemma {:induction false} AppDocsAppend(a: seq<FileBlob>, b: seq<FileBlob>, pages: FileBlob -> seq<string>, pairs: seq<MetaField>)
    ensures AppDocs(a + b, pages, pairs) == AppDocs(a, pages, pairs) + AppDocs(b, pages, pairs)
    decreases |a|
  {
    if a == [] {
      assert a + b == b;
    } else {
      assert (a + b)[0] == a[0] && (a + b)[1..] == a[1..] + b;
      AppDocsAppend(a[1..], b, pages, pairs);
      var head := FileDocs(a[0], pages, pairs);
      assert AppDocs(a + b, pages, pairs) == head + (AppDocs(a[1..], pages, pairs) + AppDocs(b, pages, pairs));
      assert head + (AppDocs(a[1..], pages, pairs) + AppDocs(b, pages, pairs))
        == (head + AppDocs(a[1..], pages, pairs)) + AppDocs(b, pages, pairs);
    }
  }

  /** A single file gives one document per text the reader extracts from
      it, in order, each named after the file. */
  lemma AppDocsOne(f: FileBlob, pages: FileBlob -> seq<string>, pairs: seq<MetaField>)
    ensures var docs := AppDocs([f], pages, pairs);
      |docs| == |pages(f)| && forall j :: 0 <= j < |docs| ==> docs[j] == Document(pages(f)[j], MetaFor(pairs, f.name))
  {
    assert [f][1..] == [];
    assert AppDocs([f], pages, pairs) == FileDocs(f, pages, pairs) + [];
  }

  /** The uploads as folder entries: each one saved under its own name. */
  function Keyed(files: seq<FileBlob>): seq<(string, FileBlob)> {
    seq(|files|, i requires 0 <= i < |files| => (files[i].name, files[i]))
  }

  /** No later upload carries the name of upload `i`, so its saved file is
      not overwritten. */
  predicate Latest(files: seq<FileBlob>, i: nat)
    requires i < |files|
  {
    forall j :: i < j < |files| ==> files[j].name != files[i].name
  }

  /** The temporary folder after every upload is saved at its own name, one
      after another: a later upload of a name overwrites the file saved
      before it. */
  function SaveAll(files: seq<FileBlob>): (folder: seq<(string, FileBlob)>)
    ensures Ordered.UniqueKeys(folder)
    ensures forall name :: Ordered.Get(folder, name) == Ordered.LastValue(Keyed(files), name)
  {
    var folder := Ordered.PutAll([], Keyed(files));
    Ordered.PutAllUnique([], Keyed(files));
    forall name ensures Ordered.Get(folder, name) == Ordered.LastValue(Keyed(files), name) {
      Ordered.PutAllGet([], Keyed(files), name);
    }
    folder
  }

  /** The files the folder holds, which the reader reads. */
  function SavedFiles(files: seq<FileBlob>): seq<FileBlob> {
    var folder := SaveAll(files);
    seq(|folder|, k requires 0 <= k < |folder| => folder[k].1)
  }

  /** A name reads nothing back from the saved uploads exactly when no
      upload carries it. */
  lemma {:induction false} LastValueAbsent(files: seq<FileBlob>, name: string)
    ensures Ordered.LastValue(Keyed(files), name).None? <==> forall i :: 0 <= i < |files| ==> files[i].name != name
    decreases |files|
  {
    if files != [] {
      var tail := files[1..];
      assert Keyed(files)[1..] == Keyed(tail);
      LastValueAbsent(tail, name);
      assert forall i :: 1 <= i < |files| ==> files[i] == tail[i - 1];
    }
  }

  /** An upload that no later upload overwrites is what its name reads. */
  lemma {:induction false} LatestReadBack(files: seq<FileBlob>, i: nat)
    requires i < |files| && Latest(files, i)
    ensures Ordered.LastValue(Keyed(files), files[i].name) == Some(files[i])
    decreases |files|
  {
    var tail := files[1..];
    assert Keyed(files)[1..] == Keyed(tail);
    assert Keyed(files)[0] == (files[0].name, files[0]);
    if i > 0 {
      assert tail[i - 1] == files[i];
      forall j | i - 1 < j < |tail| ensures tail[j].name != tail[i - 1].name {
        assert tail[j] == files[j + 1];
      }
      LatestReadBack(tail, i - 1);
    } else {
      LastValueAbsent(tail, files[0].name);
      assert forall j :: 0 <= j < |tail| ==> tail[j] == files[j + 1];
    }
  }

  /** What a name reads back is an upload of that name that no later upload
      overwrites. */
  lemma {:induction false} ReadBackLatest(files: seq<FileBlob>, name: string)
    ensures Ordered.LastValue(Keyed(files), name).Some? ==>
      exists i :: 0 <= i < |files| && Latest(files, i) && files[i].name == name
        && Ordered.LastValue(Keyed(files), name) == Some(files[i])
    decreases |files|
  {
    if files != [] {
      var tail := files[1..];
      assert Keyed(files)[1..] == Keyed(tail);
      assert Keyed(files)[0] == (files[0].name, files[0]);
      var later := Ordered.LastValue(Keyed(tail), name);
      ReadBackLatest(tail, name);
      if later.Some? {
        var i :| 0 <= i < |tail| && Latest(tail, i) && tail[i].name == name && later == Some(tail[i]);
        assert files[i + 1] == tail[i];
        forall j | i + 1 < j < |files| ensures files[j].name != files[i + 1].name {
          assert files[j] == tail[j - 1];
        }
        assert Latest(files, i + 1);
      } else if files[0].name == name {
        LastValueAbsent(tail, name);
        forall j | 0 < j < |files| ensures files[j].name != files[0].name {
          assert files[j] == tail[j - 1];
        }
        assert Latest(files, 0);
      }
    }
  }

  /** The folder holds exactly the uploads no later upload overwrites. */
  lemma SavedAreLatest(files: seq<FileBlob>)
    ensures forall k :: 0 <= k < |SavedFiles(files)| ==>
      exists i :: 0 <= i < |files| && Latest(files, i) && SavedFiles(files)[k] == files[i]
    ensures forall i :: 0 <= i < |files| && Latest(files, i) ==>
      exists k :: 0 <= k < |SavedFiles(files)| && SavedFiles(files)[k] == files[i]
  {
    var folder := SaveAll(files);
    var saved := SavedFiles(files);
    forall k | 0 <= k < |SavedFiles(files)|
      ensures exists i :: 0 <= i < |files| && Latest(files, i) && SavedFiles(files)[k] == files[i]
    {
      Ordered.GetAt(folder, k);
      ReadBackLatest(files, folder[k].0);
      assert saved[k] == folder[k].1;
      assert Ordered.LastValue(Keyed(files), folder[k].0) == Some(saved[k]);
    }
    assert forall k :: 0 <= k < |SavedFiles(files)| ==>
      exists i :: 0 <= i < |files| && Latest(files, i) && SavedFiles(files)[k] == files[i];
    forall i | 0 <= i < |files| && Latest(files, i)
      ensures exists k :: 0 <= k < |saved| && saved[k] == files[i]
    {
      LatestReadBack(files, i);
      Ordered.GetSome(folder, files[i].name);
      var k :| 0 <= k < |folder| && folder[k] == (files[i].name, files[i]);
      assert saved[k] == files[i];
    }
  }

  /** Uploads with distinct names are all kept, in upload order. */
  lemma DistinctNamesAllSaved(files: seq<FileBlob>)
    requires forall i, j :: 0 <= i < j < |files| ==> files[i].name != files[j].name
    ensures SavedFiles(files) == files
  {
    Ordered.PutAllFresh([], Keyed(files));
    assert [] + Keyed(files) == Keyed(files);
  }

  /** `app` `add_new_documents`: the same 400 cases, and a 400 as well when
      the reader makes no document of the saved files; otherwise the
      reader's documents, each with the merged metadata under its own file
      name. */
  function AppUpload(files: Option<seq<FileBlob>>, metadata: Option<seq<MetaField>>, pages: FileBlob -> seq<string>): (r: Result<seq<Document>, int>)
    ensures r.Failure? ==> r.error == 400
    ensures r.Failure? <==> (files.None? || metadata.None? || files == Some([])
      || forall i :: 0 <= i < |files.value| && Latest(files.value, i) ==> pages(files.value[i]) == [])
    ensures r.Success? ==> r.value == AppDocs(SavedFiles(files.value), pages, metadata.value)
  {
    if files.None? || metadata.None? || files.value == [] then Failure(400)
    else
      var saved := SavedFiles(files.value);
      var docs := AppDocs(saved, pages, metadata.value);
      AppDocsEmpty(saved, pages, metadata.value);
      SavedAreLatest(files.value);
      if docs == [] then Failure(400) else Success(docs)
  }

  /** A plain-text file read as a single text. */
  function WholeText(f: FileBlob): seq<string> {
    [f.content]
  }

  /** Two uploads under one name: the second overwrites the first, and only
      its text reaches the index. */
  lemma SameNameLastWins()
    ensures var older := FileBlob("a.txt", "old");
      var newer := FileBlob("a.txt", "new");
      AppUpload(Some([older, newer]), Some([]), WholeText)
        == Success([Document("new", MetaFor([], "a.txt"))])
  {
    var older := FileBlob("a.txt", "old");
    var newer := FileBlob("a.txt", "new");
    var files := [older, newer];
    var pages := WholeText;
    assert Keyed(files) == [("a.txt", older), ("a.txt", newer)];
    assert Ordered.Put([], "a.txt", older) == [("a.txt", older)];
    assert Ordered.Put([("a.txt", older)], "a.txt", newer) == [("a.txt", newer)];
    var keyed := Keyed(files);
    assert keyed[1..] == [("a.txt", newer)] && keyed[1..][1..] == [];
    assert Ordered.PutAll([("a.txt", newer)], []) == [("a.txt", newer)];
    assert Ordered.PutAll([("a.txt", older)], keyed[1..]) == [("a.txt", newer)];
    assert SaveAll(files) == Ordered.PutAll([], keyed);
    assert SavedFiles(files) == [newer];
    assert [newer][1..] == [];
    assert pages(newer) == ["new"];
    assert FileDocs(newer, pages, []) == [Document("new", MetaFor([], "a.txt"))];
    assert AppDocs(SavedFiles(files), pages, []) == FileDocs(newer, pages, []) + [];
    var doc := Document("new", MetaFor([], "a.txt"));
    assert [doc] + [] == [doc];
  }

  /** The merged metadata always carries a `file_name`. */
  lemma MetaForNamesFile(pairs: seq<MetaField>, name: string)
    ensures Ordered.Get(MetaFor(pairs, name), "file_name").Some?
  {
  }

  /** What the dialog's save hands over is what the `app` route files: it
      succeeds exactly when the reader makes a document of some picked
      file that no later pick of the same name overwrites, and every
      document carries a `file_name`. */
  lemma SavedFormUploads(f: UploadForm, pages: FileBlob -> seq<string>)
    requires CanSave(f)
    ensures AppUpload(Some(f.files), Some(f.metadata), pages).Success? <==>
      exists i :: 0 <= i < |f.files| && Latest(f.files, i) && pages(f.files[i]) != []
    ensures var r := AppUpload(Some(f.files), Some(f.metadata), pages);
      r.Success? ==> forall k :: 0 <= k < |r.value| ==> Ordered.Get(r.value[k].metadata, "file_name").Some?
  {
    var r := AppUpload(Some(f.files), Some(f.metadata), pages);
    if r.Success? {
      var saved := SavedFiles(f.files);
      AppDocsNamed(saved, pages, f.metadata);
      assert r.value == AppDocs(saved, pages, f.metadata);
      forall k | 0 <= k < |r.value|
        ensures Ordered.Get(r.value[k].metadata, "file_name").Some?
      {
        var i :| 0 <= i < |saved| && r.value[k].metadata == MetaFor(f.metadata, saved[i].name);
        MetaForNamesFile(f.metadata, saved[i].name);
      }
    }
  }
}

=== FILE: ordered.dfy ===
/** Ordered collections shared by both tiers: a list searched by key
    (JavaScript `findIndex`), replace-first-or-append (the prompt editor's
    upsert and Python's `d[k] = v` on an insertion-ordered dict), and the
    order-keeping filter behind `list.filter` and `[m for m in xs if ...]`. */
module Ordered {
  import opened Wrappers

  /** Position of the first element whose key is `k`. */
  function IndexOf<T, K(==)>(xs: seq<T>, key: T -> K, k: K): (r: Option<nat>)
    ensures r.Some? ==> r.value < |xs| && key(xs[r.value]) == k
    ensures r.Some? ==> forall i :: 0 <= i < r.value ==> key(xs[i]) != k
    ensures r.None? ==> forall i :: 0 <= i < |xs| ==> key(xs[i]) != k
  {
    if xs == [] then None
    else if key(xs[0]) == k then Some(0)
    else
      match IndexOf(xs[1..], key, k)
      case None => None
      case Some(i) => Some(i + 1)
  }

  /** Replaces the first element carrying `x`'s key by `x`, or appends `x`
      when no element carries it. */
  function Upsert<T, K(==)>(xs: seq<T>, key: T -> K, x: T): (r: seq<T>)
    ensures |r| == |xs| <==> exists i :: 0 <= i < |xs| && key(xs[i]) == key(x)
    ensures |r| == |xs| || |r| == |xs| + 1
    ensures forall i :: 0 <= i < |xs| && r[i] != xs[i] ==> IndexOf(xs, key, key(x)) == Some(i)
    ensures |r| == |xs| + 1 ==> r[|xs|] == x
    ensures IndexOf(r, key, key(x)).Some? && r[IndexOf(r, key, key(x)).value] == x
  {
    match IndexOf(xs, key, key(x))
    case Some(i) =>
      var r := xs[i := x];
      assert key(r[i]) == key(x);
      r
    case None =>
      var r := xs + [x];
      assert key(r[|xs|]) == key(x);
      r
  }

  /** The first element whose key is `k` (JavaScript `find`). */
  function Find<T, K(==)>(xs: seq<T>, key: T -> K, k: K): (r: Option<T>)
    ensures r.Some? ==> r.value in xs && key(r.value) == k
    ensures r.Some? ==> IndexOf(xs, key, k).Some? && r.value == xs[IndexOf(xs, key, k).value]
    ensures r.None? <==> forall i :: 0 <= i < |xs| ==> key(xs[i]) != k
  {
    match IndexOf(xs, key, k)
    case Some(i) => Some(xs[i])
    case None => None
  }

  /** After an upsert, looking up the upserted key finds the new element and
      any other key finds what it found before. */
  lemma UpsertFind<T, K>(xs: seq<T>, key: T -> K, x: T, k: K)
    ensures Find(Upsert(xs, key, x), key, k) == if k == key(x) then Some(x) else Find(xs, key, k)
  {
    if k != key(x) {
      var r := Upsert(xs, key, x);
      forall i | 0 <= i < |xs| && (key(xs[i]) == k || key(r[i]) == k)
        ensures r[i] == xs[i]
      {
      }
      if |r| == |xs| + 1 {
        assert key(r[|xs|]) == key(x);
      }
    }
  }

  /** Keeps, in order, the elements `drop` does not select. */
  function RemoveWhere<T(==,!new)>(xs: seq<T>, drop: T -> bool): (r: seq<T>)
    ensures forall i :: 0 <= i < |r| ==> !drop(r[i])
  {
    if xs == [] then []
    else
      assert xs == [xs[0]] + xs[1..];
      (if drop(xs[0]) then [] else [xs[0]]) + RemoveWhere(xs[1..], drop)
  }

  /** Filtering distributes over concatenation, so relative order is kept. */
  lemma {:induction false} RemoveWhereAppend<T(!new)>(a: seq<T>, b: seq<T>, drop: T -> bool)
    ensures RemoveWhere(a + b, drop) == RemoveWhere(a, drop) + RemoveWhere(b, drop)
    decreases |a|
  {
    if a == [] {
      assert a + b == b;
    } else {
      assert (a + b)[0] == a[0] && (a + b)[1..] == a[1..] + b;
      RemoveWhereAppend(a[1..], b, drop);
      if drop(a[0]) {
        assert RemoveWhere(a, drop) == RemoveWhere(a[1..], drop);
      } else {
        assert RemoveWhere(a, drop) == [a[0]] + RemoveWhere(a[1..], drop);
      }
    }
  }

  /** Each element not selected by `drop` is kept as many times as it
      occurs; each selected one is gone. */
  lemma {:induction false} RemoveWhereCounts<T(!new)>(xs: seq<T>, drop: T -> bool, x: T)
    ensures multiset(RemoveWhere(xs, drop))[x] == if drop(x) then 0 else multiset(xs)[x]
    decreases |xs|
  {
    if xs != [] {
      assert xs == [xs[0]] + xs[1..];
      RemoveWhereCounts(xs[1..], drop, x);
    }
  }

  /** A filter that selects nothing keeps the list as it is. */
  lemma {:induction false} RemoveWhereNothing<T(!new)>(xs: seq<T>, drop: T -> bool)
    ensures (forall i :: 0 <= i < |xs| ==> !drop(xs[i])) ==> RemoveWhere(xs, drop) == xs
    decreases |xs|
  {
    if xs != [] {
      RemoveWhereNothing(xs[1..], drop);
      assert xs == [xs[0]] + xs[1..];
    }
  }

  /** Filtering twice with the same test is filtering once. */
  lemma {:induction false} RemoveWhereIdempotent<T(!new)>(xs: seq<T>, drop: T -> bool)
    ensures RemoveWhere(RemoveWhere(xs, drop), drop) == RemoveWhere(xs, drop)
    decreases |xs|
  {
    if xs != [] {
      RemoveWhereIdempotent(xs[1..], drop);
      var rest := RemoveWhere(xs[1..], drop);
      if !drop(xs[0]) {
        assert ([xs[0]] + rest)[0] == xs[0];
        assert ([xs[0]] + rest)[1..] == rest;
      } else {
        assert [] + rest == rest;
      }
    }
  }

  /** Key of a dictionary entry. */
  function First<K, V>(e: (K, V)): K { e.0 }

  /** An insertion-ordered dictionary (a Python `dict`, a JSON object as
      JavaScript's `Object.keys` sees it) as its list of entries. */
  predicate UniqueKeys<K(==), V>(d: seq<(K, V)>) {
    forall i, j :: 0 <= i < j < |d| ==> d[i].0 != d[j].0
  }

  /** `d.get(k)`. */
  function Get<K(==), V>(d: seq<(K, V)>, k: K): Option<V> {
    match IndexOf(d, First, k)
    case Some(i) => Some(d[i].1)
    case None => None
  }

  /** `d[k] = v`: a new key goes last, an existing key keeps its place. */
  function Put<K(==), V>(d: seq<(K, V)>, k: K, v: V): seq<(K, V)> {
    Upsert(d, First, (k, v))
  }

  /** Reading back after `d[k] = v` sees `v` at `k` and the old value
      everywhere else. */
  lemma PutGet<K, V>(d: seq<(K, V)>, k: K, v: V, k': K)
    ensures Get(Put(d, k, v), k') == if k' == k then Some(v) else Get(d, k')
  {
    if k' != k {
      var r := Put(d, k, v);
      forall i | 0 <= i < |d| && (d[i].0 == k' || r[i].0 == k')
        ensures r[i] == d[i]
      {
      }
      if |r| == |d| + 1 {
        assert r[|d|].0 == k;
      }
    }
  }

  /** `d[k] = v` keeps the keys distinct. */
  lemma PutUnique<K, V>(d: seq<(K, V)>, k: K, v: V)
    requires UniqueKeys(d)
    ensures UniqueKeys(Put(d, k, v))
  {
    var r := Put(d, k, v);
    forall i, j | 0 <= i < j < |r| ensures r[i].0 != r[j].0 {
      if r[i] != d[i] {
        assert IndexOf(d, First, k) == Some(i);
        if j < |d| && r[j] == d[j] {}
      } else if j < |d| && r[j] != d[j] {
        assert IndexOf(d, First, k) == Some(j);
      } else if j == |d| {
        assert r[j] == (k, v);
      }
    }
  }

  /** Entries inserted one after another, as a dict comprehension or a
      sequence of assignments does. */
  function PutAll<K(==), V>(d: seq<(K, V)>, entries: seq<(K, V)>): seq<(K, V)>
    decreases |entries|
  {
    if entries == [] then d else PutAll(Put(d, entries[0].0, entries[0].1), entries[1..])
  }

  /** The value of the last entry with key `k`: the reference meaning of a
      sequence of assignments. */
  function LastValue<K(==), V>(entries: seq<(K, V)>, k: K): Option<V>
    decreases |entries|
  {
    if entries == [] then None
    else
      var later := LastValue(entries[1..], k);
      if later.Some? then later
      else if entries[0].0 == k then Some(entries[0].1)
      else None
  }

  /** After inserting `entries`, a key reads as its last inserted value, or
      as before when no entry carries it ("later pairs win"). */
  lemma {:induction false} PutAllGet<K, V>(d: seq<(K, V)>, entries: seq<(K, V)>, k: K)
    ensures Get(PutAll(d, entries), k) == match LastValue(entries, k)
      case Some(v) => Some(v)
      case None => Get(d, k)
    decreases |entries|
  {
    if entries != [] {
      var e := entries[0];
      PutAllGet(Put(d, e.0, e.1), entries[1..], k);
      PutGet(d, e.0, e.1, k);
    }
  }

  /** Each entry of a dictionary with distinct keys is what its key reads. */
  lemma GetAt<K, V>(d: seq<(K, V)>, k: nat)
    requires UniqueKeys(d) && k < |d|
    ensures Get(d, d[k].0) == Some(d[k].1)
  {
  }

  /** A key that reads a value is the key of an entry holding that value. */
  lemma GetSome<K, V>(d: seq<(K, V)>, key: K)
    ensures Get(d, key).Some? ==> exists k :: 0 <= k < |d| && d[k] == (key, Get(d, key).value)
  {
  }

  /** `d[k] = v` with a new key appends the entry. */
  lemma PutFresh<K, V>(d: seq<(K, V)>, k: K, v: V)
    requires forall i :: 0 <= i < |d| ==> d[i].0 != k
    ensures Put(d, k, v) == d + [(k, v)]
  {
  }

  /** Inserting entries whose keys are new and distinct appends them. */
  lemma {:induction false} PutAllFresh<K, V>(d: seq<(K, V)>, entries: seq<(K, V)>)
    requires UniqueKeys(entries)
    requires forall i, j :: 0 <= i < |d| && 0 <= j < |entries| ==> d[i].0 != entries[j].0
    ensures PutAll(d, entries) == d + entries
    decreases |entries|
  {
    if entries == [] {
      assert d + entries == d;
    } else {
      var e := entries[0];
      var d' := d + [e];
      PutFresh(d, e.0, e.1);
      var tail := entries[1..];
      forall i, j | 0 <= i < |d'| && 0 <= j < |tail|
        ensures d'[i].0 != tail[j].0
      {
        assert tail[j] == entries[j + 1];
        if i < |d| {
          assert d'[i] == d[i];
        } else {
          assert d'[i] == entries[0];
        }
      }
      PutAllFresh(d', tail);
      assert d' + tail == d + entries;
    }
  }

  lemma {:induction false} PutAllUnique<K, V>(d: seq<(K, V)>, entries: seq<(K, V)>)
    requires UniqueKeys(d)
    ensures UniqueKeys(PutAll(d, entries))
    decreases |entries|
  {
    if entries != [] {
      PutUnique(d, entries[0].0, entries[0].1);
      PutAllUnique(Put(d, entries[0].0, entries[0].1), entries[1..]);
    }
  }
}

=== FILE: registry.dfy ===
/** The model registry behind `/api/select_model` and `/api/delete_model`.
    The `app` server keeps two lists (`llm`, `embed`) and a current model of
    each kind; the `tok` server keeps one list, refreshed from the model
    runner, and one current model. Downloading, deleting and listing at the
    model runner are passed in as their outcomes. */
module Registry {
  import opened Wrappers
  import Ordered

  /** The fallbacks a deletion of the current model resets to. */
  const DefaultLlm := "mistral:instruct"
  const DefaultEmbed := "mxbai-embed-large:latest"

  datatype Kind = Llm | Embed

  /** `type == "llm"`; any other value, or none, means an embedding model. */
  function KindOf(kind: Option<string>): (k: Kind)
    ensures k == Llm <==> kind == Some("llm")
  {
    if kind == Some("llm") then Llm else Embed
  }

  /** The success messages of the two routes. */
  datatype Outcome = AlreadySelected | Changed | Deleted

  datatype AppRegistry = AppRegistry(llm: seq<string>, embed: seq<string>, currentLlm: string, currentEmbed: string)

  /** The state the `app` server starts from when `models.json` is absent. */
  const AppInitial := AppRegistry([DefaultLlm], [DefaultEmbed], DefaultLlm, DefaultEmbed)

  datatype AppReply = AppReply(registry: AppRegistry, reply: Result<Outcome, int>)

  predicate Known(r: AppRegistry, m: string) {
    m in r.llm || m in r.embed
  }

  function ListOf(r: AppRegistry, k: Kind): seq<string> {
    if k == Llm then r.llm else r.embed
  }

  function CurrentOf(r: AppRegistry, k: Kind): string {
    if k == Llm then r.currentLlm else r.currentEmbed
  }

  /** `n` copies of the name `m`. */
  function Copies(m: string, n: nat): (s: seq<string>)
    ensures |s| == n && forall i :: 0 <= i < n ==> s[i] == m
  {
    seq(n, _ => m)
  }

  /** The test `delete_model` filters a list with: the name is `m`. */
  function IsName(m: string): string -> bool {
    (x: string) => x == m
  }

  /** `app` `select_model`. A model neither list knows is pulled first; the
      pull loop appends the name to the requested kind's list once for each
      progress event that carries a digest (`digests` of them), skipping
      the status-only events, and an exception from the pull answers 500
      keeping whatever it appended. Selecting the model already current for
      that kind answers "already selected" and switches nothing. */
  function AppSelect(r: AppRegistry, model: Option<string>, kind: Option<string>, digests: nat, pullSucceeds: bool): (a: AppReply)
    ensures model.None? ==> a == AppReply(r, Failure(400))
    ensures a.reply.Success? <==> model.Some? && (Known(r, model.value) || pullSucceeds)
    ensures model.Some? && !Known(r, model.value) && !pullSucceeds ==>
      a.reply == Failure(500) && CurrentOf(a.registry, KindOf(kind)) == CurrentOf(r, KindOf(kind))
    ensures model.Some? && Known(r, model.value) ==> a.registry.llm == r.llm && a.registry.embed == r.embed
    ensures model.Some? && !Known(r, model.value) ==>
      ListOf(a.registry, KindOf(kind)) == ListOf(r, KindOf(kind)) + Copies(model.value, digests)
    ensures a.reply.Success? ==> CurrentOf(a.registry, KindOf(kind)) == model.value
    ensures a.reply.Success? ==> (Known(a.registry, model.value) <==> Known(r, model.value) || digests > 0)
    ensures a.reply.Success? ==> (a.reply.value == AlreadySelected <==> CurrentOf(r, KindOf(kind)) == model.value)
    ensures a.reply.Success? ==> a.reply.value != Deleted
    ensures KindOf(kind) == Llm ==> a.registry.embed == r.embed && a.registry.currentEmbed == r.currentEmbed
    ensures KindOf(kind) == Embed ==> a.registry.llm == r.llm && a.registry.currentLlm == r.currentLlm
  {
    match model
    case None => AppReply(r, Failure(400))
    case Some(m) =>
      var listed :=
        if Known(r, m) then r
        else if KindOf(kind) == Llm then r.(llm := r.llm + Copies(m, digests))
        else r.(embed := r.embed + Copies(m, digests));
      assert digests > 0 ==> Copies(m, digests)[0] == m;
      if !Known(r, m) && !pullSucceeds then AppReply(listed, Failure(500))
      else if KindOf(kind) == Llm then
        if m == listed.currentLlm then AppReply(listed, Success(AlreadySelected))
        else AppReply(listed.(currentLlm := m), Success(Changed))
      else
        if m == listed.currentEmbed then AppReply(listed, Success(AlreadySelected))
        else AppReply(listed.(currentEmbed := m), Success(Changed))
  }

  /** Once a selection has listed the model, selecting it again is
      answered "already selected" and leaves the registry as the first
      selection left it. */
  lemma AppSelectIdempotent(r: AppRegistry, m: string, kind: Option<string>, d1: nat, pull1: bool, d2: nat, pull2: bool)
    requires AppSelect(r, Some(m), kind, d1, pull1).reply.Success?
    requires Known(r, m) || d1 > 0
    ensures var once := AppSelect(r, Some(m), kind, d1, pull1).registry;
      AppSelect(once, Some(m), kind, d2, pull2) == AppReply(once, Success(AlreadySelected))
  {
  }

  /** A pull whose progress events carry no digest appends nothing: the
      model becomes current without being listed, and selecting it again
      pulls it again, failing with 500 when that pull fails. */
  lemma AppSelectUnlisted(r: AppRegistry, m: string, kind: Option<string>)
    requires !Known(r, m)
    ensures var a := AppSelect(r, Some(m), kind, 0, true);
      a.reply.Success? && CurrentOf(a.registry, KindOf(kind)) == m && !Known(a.registry, m)
      && AppSelect(a.registry, Some(m), kind, 0, false).reply == Failure(500)
  {
  }

  /** `app` `delete_model`. The current model of the kind falls back to its
      default if it is the one deleted, and the kind's list keeps, in
      order, every entry that is not the name; both happen before the
      model runner is asked to delete, so a refusal there (500) keeps
      them. */
  function AppDelete(r: AppRegistry, model: Option<string>, kind: Option<string>, deleteSucceeds: bool): (a: AppReply)
    ensures model.None? ==> a == AppReply(r, Failure(400))
    ensures model.Some? ==> a.reply == if deleteSucceeds then Success(Deleted) else Failure(500)
    ensures model.Some? ==> ListOf(a.registry, KindOf(kind)) == Ordered.RemoveWhere(ListOf(r, KindOf(kind)), IsName(model.value))
    ensures model.Some? ==> model.value !in ListOf(a.registry, KindOf(kind))
    ensures model.Some? ==> forall x :: x != model.value ==>
      multiset(ListOf(a.registry, KindOf(kind)))[x] == multiset(ListOf(r, KindOf(kind)))[x]
    ensures model.Some? && CurrentOf(r, KindOf(kind)) == model.value ==>
      CurrentOf(a.registry, KindOf(kind)) == (if KindOf(kind) == Llm then DefaultLlm else DefaultEmbed)
    ensures model.Some? && CurrentOf(r, KindOf(kind)) != model.value ==>
      CurrentOf(a.registry, KindOf(kind)) == CurrentOf(r, KindOf(kind))
    ensures KindOf(kind) == Llm ==> a.registry.embed == r.embed && a.registry.currentEmbed == r.currentEmbed
    ensures KindOf(kind) == Embed ==> a.registry.llm == r.llm && a.registry.currentLlm == r.currentLlm
  {
    match model
    case None => AppReply(r, Failure(400))
    case Some(m) =>
      var drop := IsName(m);
      var k := KindOf(kind);
      Ordered.RemoveWhereCounts(ListOf(r, k), drop, m);
      assert forall x :: x != m ==>
        multiset(Ordered.RemoveWhere(ListOf(r, k), drop))[x] == multiset(ListOf(r, k))[x] by {
        forall x | x != m {
          Ordered.RemoveWhereCounts(ListOf(r, k), drop, x);
        }
      }
      var changed :=
        if k == Llm then
          r.(currentLlm := if r.currentLlm == m then DefaultLlm else r.currentLlm,
             llm := Ordered.RemoveWhere(r.llm, drop))
        else
          r.(currentEmbed := if r.currentEmbed == m then DefaultEmbed else r.currentEmbed,
             embed := Ordered.RemoveWhere(r.embed, drop));
      AppReply(changed, if deleteSucceeds then Success(Deleted) else Failure(500))
  }

  /** Deleting the model just selected puts the kind back on its default
      and removes every copy of the name from that kind's list. */
  lemma AppSelectThenDelete(r: AppRegistry, m: string, kind: Option<string>, digests: nat, pull: bool, deleteSucceeds: bool)
    requires AppSelect(r, Some(m), kind, digests, pull).reply.Success?
    ensures var d := AppDelete(AppSelect(r, Some(m), kind, digests, pull).registry, Some(m), kind, deleteSucceeds).registry;
      CurrentOf(d, KindOf(kind)) == (if KindOf(kind) == Llm then DefaultLlm else DefaultEmbed)
      && m !in ListOf(d, KindOf(kind))
  {
  }

  /** Deleting the default model while it is current leaves it current
      although it is no longer listed. */
  lemma {:induction false} AppDeleteDefaultStaysCurrent(deleteSucceeds: bool)
    ensures var d := AppDelete(AppInitial, Some(DefaultLlm), Some("llm"), deleteSucceeds).registry;
      d.currentLlm == DefaultLlm && d.llm == []
  {
    var d := AppDelete(AppInitial, Some(DefaultLlm), Some("llm"), deleteSucceeds).registry;
    assert d.llm == Ordered.RemoveWhere([DefaultLlm], IsName(DefaultLlm));
    assert [DefaultLlm][1..] == [];
  }

  /** A second deletion of the same model changes nothing further. */
  lemma AppDeleteIdempotent(r: AppRegistry, m: string, kind: Option<string>, ok1: bool, ok2: bool)
    ensures var once := AppDelete(r, Some(m), kind, ok1).registry;
      AppDelete(once, Some(m), kind, ok2).registry == once
  {
    Ordered.RemoveWhereIdempotent(r.llm, IsName(m));
    Ordered.RemoveWhereIdempotent(r.embed, IsName(m));
  }

  // ---- tok ----

  datatype TokRegistry = TokRegistry(models: seq<string>, current: string)

  datatype TokReply = TokReply(registry: TokRegistry, reply: Result<Outcome, int>)

  /** `tok` `select_model`. An unlisted model is pulled and the list is
      replaced by the runner's listing (`listing`, `None` when the pull or
      the listing fails, answered 500). There is no "already selected"
      check: any other request switches to the model. */
  function TokSelect(r: TokRegistry, model: Option<string>, listing: Option<seq<string>>): (a: TokReply)
    ensures model.None? ==> a == TokReply(r, Failure(400))
    ensures model.Some? && model.value !in r.models && listing.None? ==> a == TokReply(r, Failure(500))
    ensures a.reply.Success? <==> model.Some? && (model.value in r.models || listing.Some?)
    ensures a.reply.Success? ==> a.reply == Success(Changed) && a.registry.current == model.value
    ensures a.reply.Success? && model.value in r.models ==> a.registry.models == r.models
    ensures a.reply.Success? && model.value !in r.models ==> a.registry.models == listing.value
  {
    match model
    case None => TokReply(r, Failure(400))
    case Some(m) =>
      if m in r.models then TokReply(r.(current := m), Success(Changed))
      else
        match listing
        case None => TokReply(r, Failure(500))
        case Some(names) => TokReply(TokRegistry(names, m), Success(Changed))
  }

  /** Unlike the `app` server, re-selecting the current model is reported
      as a change, and the registry stays as it was. */
  lemma TokReselectReportsChange(r: TokRegistry, listing: Option<seq<string>>)
    requires r.current in r.models
    ensures TokSelect(r, Some(r.current), listing) == TokReply(r, Success(Changed))
  {
  }

  /** `tok` `delete_model`. The current model falls back to the default if
      it is the one deleted; the list is then replaced by the runner's
      listing after the deletion (`None` when deletion or listing fails,
      answered 500 with the fallback kept). */
  function TokDelete(r: TokRegistry, model: Option<string>, listing: Option<seq<string>>): (a: TokReply)
    ensures model.None? ==> a == TokReply(r, Failure(400))
    ensures model.Some? ==> a.reply == if listing.Some? then Success(Deleted) else Failure(500)
    ensures model.Some? ==> a.registry.current == if r.current == model.value then DefaultLlm else r.current
    ensures model.Some? ==> a.registry.models == if listing.Some? then listing.value else r.models
  {
    match model
    case None => TokReply(r, Failure(400))
    case Some(m) =>
      var current := if r.current == m then DefaultLlm else r.current;
      match listing
      case None => TokReply(r.(current := current), Failure(500))
      case Some(names) => TokReply(TokRegistry(names, current), Success(Deleted))
  }

  /** Deleting the model selected just before returns to the default. */
  lemma TokSelectThenDelete(r: TokRegistry, m: string, pulled: Option<seq<string>>, listing: Option<seq<string>>)
    requires TokSelect(r, Some(m), pulled).reply.Success?
    ensures TokDelete(TokSelect(r, Some(m), pulled).registry, Some(m), listing).registry.current == DefaultLlm
  {
  }
}

=== FILE: session_log.dfy ===
/** A persisted session as both tiers read it: the server keeps a JSON list
    whose index 0 is a header and whose later entries are query/response
    turns. The browser rebuilds its message store from it, and the server
    rebuilds its chat memory from it. */
module SessionLog {
  import opened Wrappers
  import opened Messages

  /** One JSON object of a session file: the header `{title[, date]}` or a
      turn `{query, response}`. Dates are day numbers. */
  datatype Entry =
    | Header(title: string, date: Option<int>)
    | Turn(query: string, response: string)

  /** The text the browser reads from `data[i].query`; a header has no such
      property (`undefined`), which renders as nothing. */
  function QueryShown(e: Entry): string {
    if e.Turn? then e.query else ""
  }

  function ResponseShown(e: Entry): string {
    if e.Turn? then e.response else ""
  }

  /** The rebuild loop over `es`, numbering from `nextId`: a user message
      then a bot message per entry, one id per message. */
  function Emit(es: seq<Entry>, nextId: int): (ms: seq<Message>)
    ensures |ms| == 2 * |es|
    ensures forall k :: 0 <= k < |es| ==>
      ms[2 * k] == Message(nextId + 2 * k, User, QueryShown(es[k])) &&
      ms[2 * k + 1] == Message(nextId + 2 * k + 1, Bot, ResponseShown(es[k]))
    decreases |es|
  {
    if es == [] then []
    else
      var rest := Emit(es[1..], nextId + 2);
      var ms := [Message(nextId, User, QueryShown(es[0])), Message(nextId + 1, Bot, ResponseShown(es[0]))] + rest;
      forall k | 1 <= k < |es|
        ensures ms[2 * k] == Message(nextId + 2 * k, User, QueryShown(es[k]))
        ensures ms[2 * k + 1] == Message(nextId + 2 * k + 1, Bot, ResponseShown(es[k]))
      {
        assert es[k] == es[1..][k - 1];
        assert ms[2 * k] == rest[2 * (k - 1)] && ms[2 * k + 1] == rest[2 * (k - 1) + 1];
      }
      ms
  }

  /** The browser's `setMessages(() => { ... })` over a
      `/api/choose_chat_history` reply: entry 0 is skipped, every later
      entry yields a user then a bot message, ids run 1, 2, 3, ... */
  function Rebuild(data: seq<Entry>): (ms: seq<Message>)
    ensures |ms| == if |data| == 0 then 0 else 2 * (|data| - 1)
    ensures |ms| % 2 == 0
    ensures WellNumbered(ms)
    ensures forall k :: 0 <= k < |data| - 1 ==>
      ms[2 * k] == Message(2 * k + 1, User, QueryShown(data[k + 1])) &&
      ms[2 * k + 1] == Message(2 * k + 2, Bot, ResponseShown(data[k + 1]))
  {
    if |data| <= 1 then []
    else
      var ms := Emit(data[1..], 1);
      forall k | 0 <= k < |data| - 1
        ensures data[1..][k] == data[k + 1]
      {
      }
      forall i | 0 <= i < |ms|
        ensures ms[i].id == i + 1
      {
        var k := i / 2;
        assert 0 <= k < |data[1..]|;
        assert ms[2 * k].id == 2 * k + 1 && ms[2 * k + 1].id == 2 * k + 2;
        assert i == 2 * k || i == 2 * k + 1;
      }
      ms
  }

  /** The example exchange: header, ("a", "b"), ("c", "d") rebuilds to four
      messages numbered 1 to 4. */
  lemma RebuildExample(h: Entry)
    ensures Rebuild([h, Turn("a", "b"), Turn("c", "d")]) == [
      Message(1, User, "a"), Message(2, Bot, "b"),
      Message(3, User, "c"), Message(4, Bot, "d")]
  {
    var ms := Rebuild([h, Turn("a", "b"), Turn("c", "d")]);
    assert ms[0].text == "a" && ms[1].text == "b" && ms[2].text == "c" && ms[3].text == "d";
  }

  /** The turns of a conversation, back from a rebuilt store. */
  function Exchanges(ms: seq<Message>): seq<(string, string)>
    requires |ms| % 2 == 0
    decreases |ms|
  {
    if ms == [] then [] else [(ms[0].text, ms[1].text)] + Exchanges(ms[2..])
  }

  function TurnsOf(pairs: seq<(string, string)>): (es: seq<Entry>)
    ensures |es| == |pairs|
    ensures forall k :: 0 <= k < |pairs| ==> es[k] == Turn(pairs[k].0, pairs[k].1)
  {
    seq(|pairs|, k requires 0 <= k < |pairs| => Turn(pairs[k].0, pairs[k].1))
  }

  /** The conversation can be read back from the emitted messages. */
  lemma {:induction false} ExchangesOfEmit(pairs: seq<(string, string)>, nextId: int)
    ensures Exchanges(Emit(TurnsOf(pairs), nextId)) == pairs
    decreases |pairs|
  {
    if pairs != [] {
      var es := TurnsOf(pairs);
      var ms := Emit(es, nextId);
      var rest := Emit(es[1..], nextId + 2);
      assert ms == [Message(nextId, User, pairs[0].0), Message(nextId + 1, Bot, pairs[0].1)] + rest by {
        assert es[0] == Turn(pairs[0].0, pairs[0].1);
      }
      assert es[1..] == TurnsOf(pairs[1..]);
      ExchangesOfEmit(pairs[1..], nextId + 2);
      assert ms[2..] == rest;
      assert Exchanges(ms) == [pairs[0]] + pairs[1..];
    }
  }

  /** Saving a header and then some turns, and reloading the session in the
      browser, shows exactly those turns in order. */
  lemma ReloadRoundTrip(h: Entry, pairs: seq<(string, string)>)
    ensures Exchanges(Rebuild([h] + TurnsOf(pairs))) == pairs
  {
    var data := [h] + TurnsOf(pairs);
    assert data[1..] == TurnsOf(pairs);
    if pairs != [] {
      ExchangesOfEmit(pairs, 1);
    }
  }

  /** The keys of the dated history catalog, in the order the panel
      renders them. */
  const BucketNames: seq<string> := ["Today", "Last Week", "Last Month", "Older"]

  // ---- the server's chat memory ----

  datatype Role = UserRole | AssistantRole

  datatype ChatMessage = ChatMessage(role: Role, content: string)

  /** The memory after the loop, and whether it ran to the end; a header
      past index 0 has no `query` key, so `data['query']` raises and the
      memory keeps what was put before. */
  datatype Rebuilt = Rebuilt(memory: seq<ChatMessage>, complete: bool)

  /** How many entries of `es` come before its first header (all of them
      when there is none). */
  function LeadingTurns(es: seq<Entry>): (n: nat)
    ensures n <= |es|
    ensures forall k :: 0 <= k < n ==> es[k].Turn?
    ensures n < |es| ==> es[n].Header?
    decreases |es|
  {
    if es == [] || es[0].Header? then 0 else 1 + LeadingTurns(es[1..])
  }

  /** The memory rebuilt from `es`: query then response for each entry,
      up to the first header; the loop completes only when there is none. */
  function MemoryFrom(es: seq<Entry>): (r: Rebuilt)
    ensures |r.memory| == 2 * LeadingTurns(es)
    ensures r.complete <==> LeadingTurns(es) == |es|
    ensures forall k :: 0 <= k < LeadingTurns(es) ==>
      r.memory[2 * k] == ChatMessage(UserRole, es[k].query) &&
      r.memory[2 * k + 1] == ChatMessage(AssistantRole, es[k].response)
    decreases |es|
  {
    if es == [] then Rebuilt([], true)
    else if es[0].Header? then Rebuilt([], false)
    else
      var rest := MemoryFrom(es[1..]);
      var memory := [ChatMessage(UserRole, es[0].query), ChatMessage(AssistantRole, es[0].response)] + rest.memory;
      var n := LeadingTurns(es[1..]);
      assert LeadingTurns(es) == n + 1 && |memory| == 2 * (n + 1);
      forall k | 1 <= k < n + 1
        ensures memory[2 * k] == ChatMessage(UserRole, es[k].query)
        ensures memory[2 * k + 1] == ChatMessage(AssistantRole, es[k].response)
      {
        assert es[k] == es[1..][k - 1];
        assert memory[2 * k] == rest.memory[2 * (k - 1)] && memory[2 * k + 1] == rest.memory[2 * (k - 1) + 1];
      }
      Rebuilt(memory, rest.complete)
  }

  /** The rebuild completes exactly when no entry is a header. */
  lemma MemoryCompleteIff(es: seq<Entry>)
    ensures MemoryFrom(es).complete <==> forall k :: 0 <= k < |es| ==> es[k].Turn?
  {
  }

  /** `choose_chat_history`'s memory rebuild over `session_file[1:]`. */
  function Memory(session: seq<Entry>): Rebuilt {
    MemoryFrom(if |session| == 0 then [] else session[1..])
  }

  /** Server memory and browser store agree: a user message where the
      memory holds a user turn, a bot message where it holds the
      assistant's, with the same texts. */
  lemma MemoryMatchesStore(session: seq<Entry>)
    requires Memory(session).complete
    ensures var mem, ms := Memory(session).memory, Rebuild(session);
      |mem| == |ms| &&
      forall k :: 0 <= k < |ms| / 2 ==>
        mem[2 * k] == ChatMessage(UserRole, ms[2 * k].text) && ms[2 * k].sender == User &&
        mem[2 * k + 1] == ChatMessage(AssistantRole, ms[2 * k + 1].text) && ms[2 * k + 1].sender == Bot
  {
    var mem, ms := Memory(session).memory, Rebuild(session);
    if |session| > 0 {
      forall k | 0 <= k < |ms| / 2
        ensures session[1..][k] == session[k + 1]
      {
      }
    }
  }
}

=== FILE: session_store.dfy ===
/** The `prev_msgs` folder the Python back-ends keep their sessions in:
    numbering a new session file, appending to a session, and the history
    listings (`tok` and `server` list sessions flat, `app` files them in
    dated buckets). The folder is its listing: files in `os.listdir`
    order, each with the JSON list it holds. */
module SessionStore {
  import opened Wrappers
  import opened Text
  import opened SessionLog
  import Ordered

  datatype SessionFile = SessionFile(name: string, log: seq<Entry>)

  function Name(f: SessionFile): string { f.name }

  /** A directory never lists one name twice. */
  predicate DistinctNames(folder: seq<SessionFile>) {
    forall i, j :: 0 <= i < j < |folder| ==> folder[i].name != folder[j].name
  }

  /** The position of the file called `name`. */
  function Locate(folder: seq<SessionFile>, name: string): Option<nat> {
    Ordered.IndexOf(folder, Name, name)
  }

  /** `f"session_{n}.json"`. */
  function SessionName(n: nat): string {
    "session_" + NatToString(n) + ".json"
  }

  lemma SessionNameInjective(a: nat, b: nat)
    requires SessionName(a) == SessionName(b)
    ensures a == b
  {
    var sa, sb := NatToString(a), NatToString(b);
    assert |sa| == |sb|;
    assert SessionName(a)[8..8 + |sa|] == sa;
    assert SessionName(b)[8..8 + |sb|] == sb;
    NatToStringInjective(a, b);
  }

  datatype Started = Started(folder: seq<SessionFile>, name: string)

  /** `start_new_session()`: the new file is named after the number of
      files plus one and opened for writing with `[]`, which empties a
      file that already carries that name. */
  function StartNewSession(folder: seq<SessionFile>): (r: Started)
    ensures r.name == SessionName(|folder| + 1)
    ensures Locate(r.folder, r.name).Some? && r.folder[Locate(r.folder, r.name).value] == SessionFile(r.name, [])
    ensures |r.folder| == |folder| <==> Locate(folder, r.name).Some?
    ensures |r.folder| == |folder| || r.folder == folder + [SessionFile(r.name, [])]
    ensures forall i :: 0 <= i < |folder| && folder[i].name != r.name ==> r.folder[i] == folder[i]
  {
    var name := SessionName(|folder| + 1);
    var folder' := Ordered.Upsert(folder, Name, SessionFile(name, []));
    assert |folder'| == |folder| + 1 ==> folder' == folder + [SessionFile(name, [])];
    Started(folder', name)
  }

  /** The folder holds exactly the sessions this back-end numbered,
      `session_1.json` to `session_n.json`. */
  predicate Numbered(folder: seq<SessionFile>) {
    forall i :: 0 <= i < |folder| ==> exists n :: 1 <= n <= |folder| && folder[i].name == SessionName(n)
  }

  /** In a numbered folder no file carries the next number's name. */
  lemma NumberedMissesNext(folder: seq<SessionFile>)
    requires Numbered(folder)
    ensures forall i :: 0 <= i < |folder| ==> folder[i].name != SessionName(|folder| + 1)
  {
    forall i | 0 <= i < |folder| ensures folder[i].name != SessionName(|folder| + 1) {
      var n :| 1 <= n <= |folder| && folder[i].name == SessionName(n);
      if folder[i].name == SessionName(|folder| + 1) {
        SessionNameInjective(n, |folder| + 1);
      }
    }
  }

  /** A numbered folder with the next number's file added last is
      numbered. */
  lemma NumberedExtend(folder: seq<SessionFile>, log: seq<Entry>)
    requires Numbered(folder)
    ensures Numbered(folder + [SessionFile(SessionName(|folder| + 1), log)])
  {
    var r := folder + [SessionFile(SessionName(|folder| + 1), log)];
    forall i | 0 <= i < |r| ensures exists n :: 1 <= n <= |r| && r[i].name == SessionName(n) {
      if i == |folder| {
        assert r[i].name == SessionName(|folder| + 1);
      } else {
        var n :| 1 <= n <= |folder| && folder[i].name == SessionName(n);
        assert r[i].name == SessionName(n);
      }
    }
  }

  /** In a numbered folder the new session is fresh: it is added last,
      every earlier session survives, and the folder stays numbered. */
  lemma StartNewSessionFresh(folder: seq<SessionFile>)
    requires Numbered(folder)
    ensures StartNewSession(folder).folder == folder + [SessionFile(SessionName(|folder| + 1), [])]
    ensures Numbered(StartNewSession(folder).folder)
  {
    NumberedMissesNext(folder);
    assert Locate(folder, SessionName(|folder| + 1)).None?;
    NumberedExtend(folder, []);
  }

  /** Numbering by count is not fresh once a file has gone: with only
      `session_2.json` left, the next session is `session_2.json` again
      and its conversation is emptied. */
  lemma StartNewSessionAfterGap(log: seq<Entry>)
    ensures StartNewSession([SessionFile(SessionName(2), log)]).folder == [SessionFile(SessionName(2), [])]
  {
    assert SessionName(1 + 1) == SessionName(2);
  }

  /** `save_to_session` of `tok` and `server`: `data` appended to the
      named file; a missing file fails to open. */
  function Append(folder: seq<SessionFile>, name: string, data: Entry): (r: Option<seq<SessionFile>>)
    ensures r.None? <==> Locate(folder, name).None?
    ensures r.Some? ==> |r.value| == |folder|
    ensures r.Some? ==> var i := Locate(folder, name).value;
      r.value[i] == SessionFile(name, folder[i].log + [data]) &&
      forall j :: 0 <= j < |folder| && j != i ==> r.value[j] == folder[j]
  {
    match Locate(folder, name)
    case None => None
    case Some(i) => Some(folder[i := SessionFile(name, folder[i].log + [data])])
  }

  /** `save_to_session` of `app`: unless the session is marked updated,
      the header's date is first set to `today`; on an empty list that
      write raises `IndexError`. A turn found at index 0 has no header
      date to rewrite and is left as it is. */
  function AppAppend(folder: seq<SessionFile>, name: string, updated: bool, today: int, data: Entry): (r: Option<seq<SessionFile>>)
    ensures r.None? <==> Locate(folder, name).None? || (!updated && folder[Locate(folder, name).value].log == [])
    ensures r.Some? ==> |r.value| == |folder|
    ensures r.Some? ==> var i := Locate(folder, name).value; var before := folder[i].log; var after := r.value[i].log;
      r.value[i].name == name && |after| == |before| + 1 && after[|before|] == data &&
      (forall k :: 1 <= k < |before| ==> after[k] == before[k]) &&
      (before != [] ==> after[0] == (if !updated && before[0].Header? then before[0].(date := Some(today)) else before[0])) &&
      forall j :: 0 <= j < |folder| && j != i ==> r.value[j] == folder[j]
  {
    match Locate(folder, name)
    case None => None
    case Some(i) =>
      var log := folder[i].log;
      if !updated && log == [] then None
      else
        var dated := if !updated && log[0].Header? then log[0 := log[0].(date := Some(today))] else log;
        Some(folder[i := SessionFile(name, dated + [data])])
  }

  // ---- history listings ----

  /** A file the history lists: a `.json` name and a non-empty list. */
  predicate Listed(f: SessionFile) {
    EndsWith(f.name, ".json") && f.log != []
  }

  /** `session_data[0].get('title')`: `None` when index 0 is not a header. */
  function TitleOf(e: Entry): Option<string> {
    if e.Header? then Some(e.title) else None
  }

  /** The `tok` and `server` history: `[title, filename]` for every listed
      file, in folder order. */
  function History(folder: seq<SessionFile>): (r: seq<(Option<string>, string)>)
    ensures |r| <= |folder|
  {
    if folder == [] then []
    else
      var rest := History(folder[1..]);
      var f := folder[0];
      if Listed(f) then [(TitleOf(f.log[0]), f.name)] + rest else rest
  }

  /** The pair of a listed file. */
  function Listing(f: SessionFile): (Option<string>, string)
    requires f.log != []
  {
    (TitleOf(f.log[0]), f.name)
  }

  /** Every pair of the history is the listing of a listed file. */
  lemma {:induction false} HistorySound(folder: seq<SessionFile>)
    ensures forall k :: 0 <= k < |History(folder)| ==>
      exists i :: 0 <= i < |folder| && Listed(folder[i]) && History(folder)[k] == Listing(folder[i])
    decreases |folder|
  {
    if folder == [] {
      assert History(folder) == [];
    } else {
      var tail := folder[1..];
      HistorySound(tail);
      var rest := History(tail);
      var head := if Listed(folder[0]) then [Listing(folder[0])] else [];
      assert History(folder) == head + rest;
      forall k | 0 <= k < |History(folder)|
        ensures exists i :: 0 <= i < |folder| && Listed(folder[i]) && History(folder)[k] == Listing(folder[i])
      {
        if k < |head| {
          assert History(folder)[k] == Listing(folder[0]) && Listed(folder[0]);
        } else {
          assert History(folder)[k] == rest[k - |head|];
          var i :| 0 <= i < |tail| && Listed(tail[i]) && rest[k - |head|] == Listing(tail[i]);
          assert tail[i] == folder[i + 1];
        }
      }
    }
  }

  /** Every listed file has its pair in the history. */
  lemma {:induction false} HistoryComplete(folder: seq<SessionFile>)
    ensures forall i :: 0 <= i < |folder| && Listed(folder[i]) ==> Listing(folder[i]) in History(folder)
    decreases |folder|
  {
    if folder != [] {
      var tail := folder[1..];
      HistoryComplete(tail);
      var rest := History(tail);
      var head := if Listed(folder[0]) then [Listing(folder[0])] else [];
      assert History(folder) == head + rest;
      forall i | 0 <= i < |folder| && Listed(folder[i])
        ensures Listing(folder[i]) in History(folder)
      {
        if i == 0 {
          assert History(folder)[0] == Listing(folder[0]);
        } else {
          assert folder[i] == tail[i - 1];
        }
      }
    }
  }

  /** The listing of a folder is the listing of its first files followed
      by the listing of the rest: one pair per listed file, in folder
      order. */
  lemma {:induction false} HistoryAppend(a: seq<SessionFile>, b: seq<SessionFile>)
    ensures History(a + b) == History(a) + History(b)
    decreases |a|
  {
    if a == [] {
      assert a + b == b;
    } else {
      assert (a + b)[0] == a[0] && (a + b)[1..] == a[1..] + b;
      HistoryAppend(a[1..], b);
    }
  }

  /** A single file is listed as its title and name exactly when it is a
      non-empty `.json` file. */
  lemma HistoryOne(f: SessionFile)
    ensures History([f]) == if Listed(f) then [(TitleOf(f.log[0]), f.name)] else []
  {
    assert [f][1..] == [];
  }

  /** The file `choose_chat_history` settles on: the first listed `.json`
      file with the requested name. */
  function Choosable(folder: seq<SessionFile>, name: string): (r: Option<nat>)
    ensures r.Some? ==> r.value < |folder| && folder[r.value].name == name && Listed(folder[r.value])
    ensures r.None? <==> forall i :: 0 <= i < |folder| ==> !(folder[i].name == name && Listed(folder[i]))
  {
    if folder == [] then None
    else if folder[0].name == name && Listed(folder[0]) then Some(0)
    else
      match Choosable(folder[1..], name)
      case None => None
      case Some(i) => Some(i + 1)
  }

  // ---- the dated catalog of `app` ----

  datatype Bucket = Today | LastWeek | LastMonth | Older

  function BucketIndex(b: Bucket): nat {
    match b
    case Today => 0
    case LastWeek => 1
    case LastMonth => 2
    case Older => 3
  }

  /** The filing rule of `get_chat_history`, on day numbers: today's
      sessions, then those after `today - 7`, then those after
      `today - 30`, then the rest. */
  function Classify(date: int, today: int): (b: Bucket)
    ensures b == Today <==> date == today
    ensures date > today ==> b == LastWeek
  {
    if date == today then Today
    else if date > today - 7 then LastWeek
    else if date > today - 30 then LastMonth
    else Older
  }

  /** A past session's bucket by its age in days: 0, 1 to 6, 7 to 29,
      30 and more. */
  lemma ClassifyByAge(date: int, today: int)
    requires date <= today
    ensures var age := today - date;
      Classify(date, today) == (if age == 0 then Today else if age <= 6 then LastWeek else if age <= 29 then LastMonth else Older)
  {
  }

  /** Among past sessions an older one is never filed in a fresher bucket. */
  lemma ClassifyMonotone(d1: int, d2: int, today: int)
    requires d1 <= d2 <= today
    ensures BucketIndex(Classify(d1, today)) >= BucketIndex(Classify(d2, today))
  {
  }

  /** `datetime.strptime(session_data[0].get('date'), ...)`: `None` when
      index 0 carries no date (a turn, or a header another back-end wrote). */
  function DateOf(e: Entry): Option<int> {
    if e.Header? then e.date else None
  }

  /** Every listed session has a dated header at index 0. */
  predicate AllDated(folder: seq<SessionFile>) {
    forall i :: 0 <= i < |folder| && Listed(folder[i]) ==> DateOf(folder[i].log[0]).Some?
  }

  /** A listed session whose header date files it under `b`. */
  predicate FiledUnder(f: SessionFile, today: int, b: Bucket) {
    Listed(f) && DateOf(f.log[0]).Some? && Classify(DateOf(f.log[0]).value, today) == b
  }

  /** The assignment `session_titles[bucket][title] = filename`. */
  function Filing(f: SessionFile): (string, string)
    requires f.log != [] && f.log[0].Header?
  {
    (f.log[0].title, f.name)
  }

  /** `p` is the assignment of some session filed under `b`. */
  predicate FiledFrom(p: (string, string), folder: seq<SessionFile>, today: int, b: Bucket) {
    exists i :: 0 <= i < |folder| && FiledUnder(folder[i], today, b) && p == Filing(folder[i])
  }

  lemma FiledFromTail(p: (string, string), folder: seq<SessionFile>, today: int, b: Bucket)
    requires folder != [] && FiledFrom(p, folder[1..], today, b)
    ensures FiledFrom(p, folder, today, b)
  {
    var j :| 0 <= j < |folder| - 1 && FiledUnder(folder[1..][j], today, b) && p == Filing(folder[1..][j]);
    assert folder[1..][j] == folder[j + 1];
  }

  /** The assignments the history loop makes into bucket `b`, in folder
      order. */
  function Filed(folder: seq<SessionFile>, today: int, b: Bucket): (r: seq<(string, string)>)
    ensures forall k :: 0 <= k < |r| ==> FiledFrom(r[k], folder, today, b)
    ensures forall i :: 0 <= i < |folder| && FiledUnder(folder[i], today, b) ==> Filing(folder[i]) in r
  {
    if folder == [] then []
    else
      var rest := Filed(folder[1..], today, b);
      var f := folder[0];
      assert forall k :: 0 <= k < |rest| ==> FiledFrom(rest[k], folder, today, b) by {
        forall k | 0 <= k < |rest| ensures FiledFrom(rest[k], folder, today, b) {
          FiledFromTail(rest[k], folder, today, b);
        }
      }
      if FiledUnder(f, today, b) then
        var r := [Filing(f)] + rest;
        assert forall k :: 1 <= k < |r| ==> r[k] == rest[k - 1];
        assert FiledFrom(r[0], folder, today, b);
        r
      else rest
  }

  /** The assignments into a bucket from a folder are those from its
      first files followed by those from the rest, in folder order. */
  lemma {:induction false} FiledAppend(a: seq<SessionFile>, b: seq<SessionFile>, today: int, bucket: Bucket)
    ensures Filed(a + b, today, bucket) == Filed(a, today, bucket) + Filed(b, today, bucket)
    decreases |a|
  {
    if a == [] {
      assert a + b == b;
    } else {
      assert (a + b)[0] == a[0] && (a + b)[1..] == a[1..] + b;
      FiledAppend(a[1..], b, today, bucket);
    }
  }

  /** A single session makes one assignment into the bucket its date
      files it under, and none into the others. */
  lemma FiledOne(f: SessionFile, today: int, bucket: Bucket)
    ensures Filed([f], today, bucket) == if FiledUnder(f, today, bucket) then [Filing(f)] else []
  {
    assert [f][1..] == [];
  }

  function BucketOf(i: nat): Bucket
    requires i < 4
  {
    [Today, LastWeek, LastMonth, Older][i]
  }

  /** The `app` history reply: the four buckets, each a title-to-filename
      object; a listed session without a parseable date makes the whole
      request fail with status 500. */
  function AppHistory(folder: seq<SessionFile>, today: int): (r: Result<seq<(string, seq<(string, string)>)>, int>)
    ensures r.Failure? <==> !AllDated(folder)
    ensures r.Failure? ==> r.error == 500
    ensures r.Success? ==> |r.value| == 4
    ensures r.Success? ==> forall i :: 0 <= i < 4 ==> r.value[i] == (BucketNames[i], Ordered.PutAll([], Filed(folder, today, BucketOf(i))))
  {
    if !AllDated(folder) then Failure(500)
    else Success(seq(4, i requires 0 <= i < 4 => (BucketNames[i], Ordered.PutAll([], Filed(folder, today, BucketOf(i))))))
  }

  /** Looking a title up in a bucket of the reply finds the filename of
      the last session with that title filed there (one filename survives
      per title), and nothing for a title never filed there. */
  lemma AppHistoryLookup(folder: seq<SessionFile>, today: int, i: nat, title: string)
    requires i < 4 && AppHistory(folder, today).Success?
    ensures Ordered.Get(AppHistory(folder, today).value[i].1, title) == Ordered.LastValue(Filed(folder, today, BucketOf(i)), title)
  {
    Ordered.PutAllGet([], Filed(folder, today, BucketOf(i)), title);
  }
}

=== FILE: settings_modal.dfy ===
/** The custom-prompt editor of the `app` settings dialog: two prompt lists
    (the LLM tab and the chat-engine tab), a draft per tab, a default per
    tab, and the selection on each tab; plus the server route that deletes
    a prompt. */
module SettingsModal {
  import opened Wrappers
  import Ordered

  /** A prompt; `name` is the JavaScript object's `label`. */
  datatype Prompt = Prompt(name: string, value: string)

  function Label(p: Prompt): string { p.name }

  const EmptyDraft := Prompt("", "")

  /** The sub-tab in view: `'LLM'`, or any other value meaning the chat
      engine. */
  datatype Tab = LlmTab | ChatTab

  datatype Pane = Pane(prompts: seq<Prompt>, draft: Prompt, selected: Option<Prompt>, default: Option<Prompt>)

  datatype Editor = Editor(llm: Pane, chat: Pane)

  function PaneOf(e: Editor, t: Tab): Pane {
    if t == LlmTab then e.llm else e.chat
  }

  function WithPane(e: Editor, t: Tab, p: Pane): (r: Editor)
    ensures PaneOf(r, t) == p
    ensures PaneOf(r, if t == LlmTab then ChatTab else LlmTab) == PaneOf(e, if t == LlmTab then ChatTab else LlmTab)
  {
    if t == LlmTab then e.(llm := p) else e.(chat := p)
  }

  /** The other sub-tab. */
  function Other(t: Tab): Tab {
    if t == LlmTab then ChatTab else LlmTab
  }

  /** "Add or Update Prompt" is enabled only when the draft has both a name
      and a text. */
  predicate CanAdd(e: Editor, t: Tab) {
    PaneOf(e, t).draft.name != "" && PaneOf(e, t).draft.value != ""
  }

  /** `addOrUpdatePrompt`: the draft replaces the first prompt with its
      label, or goes last when no prompt has it; the draft is then
      cleared. The other tab is not touched. */
  function AddOrUpdate(e: Editor, t: Tab): (r: Editor)
    ensures PaneOf(r, Other(t)) == PaneOf(e, Other(t))
    ensures PaneOf(r, t).draft == EmptyDraft
    ensures PaneOf(r, t).selected == PaneOf(e, t).selected && PaneOf(r, t).default == PaneOf(e, t).default
    ensures var before, after, d := PaneOf(e, t).prompts, PaneOf(r, t).prompts, PaneOf(e, t).draft;
      (|after| == |before| <==> exists i :: 0 <= i < |before| && before[i].name == d.name)
      && (|after| == |before| || (|after| == |before| + 1 && after[|before|] == d))
      && (forall i :: 0 <= i < |before| && after[i] != before[i] ==>
            before[i].name == d.name && after[i] == d && forall j :: 0 <= j < i ==> before[j].name != d.name)
  {
    var p := PaneOf(e, t);
    var after := Ordered.Upsert(p.prompts, Label, p.draft);
    forall i | 0 <= i < |p.prompts| && after[i] != p.prompts[i]
      ensures p.prompts[i].name == p.draft.name && after[i] == p.draft
    {
      assert Ordered.IndexOf(p.prompts, Label, Label(p.draft)) == Some(i);
    }
    WithPane(e, t, p.(prompts := after, draft := EmptyDraft))
  }

  /** After adding or updating, the draft's label finds the draft and every
      other label finds what it found before. */
  lemma AddThenFind(e: Editor, t: Tab, l: string)
    ensures var d := PaneOf(e, t).draft;
      Ordered.Find(PaneOf(AddOrUpdate(e, t), t).prompts, Label, l)
      == if l == d.name then Some(d) else Ordered.Find(PaneOf(e, t).prompts, Label, l)
  {
    var p := PaneOf(e, t);
    Ordered.UpsertFind(p.prompts, Label, p.draft, l);
  }

  /** Typing into the draft's name or text field. */
  function EditDraft(e: Editor, t: Tab, name: string, value: string): (r: Editor)
    ensures PaneOf(r, t).draft == Prompt(name, value)
    ensures PaneOf(r, t).prompts == PaneOf(e, t).prompts && PaneOf(r, Other(t)) == PaneOf(e, Other(t))
  {
    WithPane(e, t, PaneOf(e, t).(draft := Prompt(name, value)))
  }

  /** Choosing a prompt in the tab's selector. */
  function Choose(e: Editor, t: Tab, p: Prompt): (r: Editor)
    ensures PaneOf(r, t).selected == Some(p)
    ensures PaneOf(r, t).prompts == PaneOf(e, t).prompts && PaneOf(r, Other(t)) == PaneOf(e, Other(t))
  {
    WithPane(e, t, PaneOf(e, t).(selected := Some(p)))
  }

  /** `setAsDefaultPrompt`: the tab's default becomes the first prompt whose
      label is the selected one's (none when it is gone from the list).
      The button only shows while a prompt is selected. */
  function SetAsDefault(e: Editor, t: Tab): (r: Editor)
    ensures PaneOf(r, Other(t)) == PaneOf(e, Other(t))
    ensures PaneOf(e, t).selected.None? ==> r == e
    ensures PaneOf(e, t).selected.Some? ==>
      PaneOf(r, t) == PaneOf(e, t).(default := Ordered.Find(PaneOf(e, t).prompts, Label, PaneOf(e, t).selected.value.name))
    ensures PaneOf(r, t).default.Some? && PaneOf(r, t).default != PaneOf(e, t).default ==>
      PaneOf(r, t).default.value in PaneOf(e, t).prompts
      && PaneOf(r, t).default.value.name == PaneOf(e, t).selected.value.name
  {
    var p := PaneOf(e, t);
    match p.selected
    case None => e
    case Some(s) => WithPane(e, t, p.(default := Ordered.Find(p.prompts, Label, s.name)))
  }

  /** A prompt just added, selected and made default is the default. */
  lemma AddChooseDefault(e: Editor, t: Tab)
    ensures var d := PaneOf(e, t).draft;
      var added := AddOrUpdate(e, t);
      PaneOf(SetAsDefault(Choose(added, t, d), t), t).default == Some(d)
  {
    var d := PaneOf(e, t).draft;
    AddThenFind(e, t, d.name);
  }

  /** The test a deletion filters prompts with: the prompt's label equals
      `name` (`None`, the value of a missing field, equals no label). */
  function LabelIs(name: Option<string>): Prompt -> bool {
    (q: Prompt) => name == Some(q.name)
  }

  /** `handleDelete`: after confirmation and an ok reply every prompt with
      that label leaves the tab's list, the others staying in order, and
      the draft, selection and default stay as they were; a cancel or a failed request leaves
      the editor as it was. */
  function Delete(e: Editor, t: Tab, name: string, confirmed: bool, ok: bool): (r: Editor)
    ensures !(confirmed && ok) ==> r == e
    ensures PaneOf(r, Other(t)) == PaneOf(e, Other(t))
    ensures confirmed && ok ==>
      PaneOf(r, t) == PaneOf(e, t).(prompts := Ordered.RemoveWhere(PaneOf(e, t).prompts, LabelIs(Some(name))))
    ensures confirmed && ok ==> forall i :: 0 <= i < |PaneOf(r, t).prompts| ==> PaneOf(r, t).prompts[i].name != name
    ensures confirmed && ok ==> forall q: Prompt :: q.name != name ==>
      multiset(PaneOf(r, t).prompts)[q] == multiset(PaneOf(e, t).prompts)[q]
  {
    if !(confirmed && ok) then e
    else
      var p := PaneOf(e, t);
      var drop := LabelIs(Some(name));
      forall q: Prompt | q.name != name
        ensures multiset(Ordered.RemoveWhere(p.prompts, drop))[q] == multiset(p.prompts)[q]
      {
        Ordered.RemoveWhereCounts(p.prompts, drop, q);
      }
      WithPane(e, t, p.(prompts := Ordered.RemoveWhere(p.prompts, drop)))
  }

  // ---- server side ----

  /** The server's stored prompt lists. */
  datatype Stored = Stored(llm: seq<Prompt>, chat: seq<Prompt>)

  /** The body of a delete request: the field names it carries. */
  datatype DeleteBody = DeleteBody(fields: seq<(string, string)>)

  /** `delete_prompt`: removes every prompt whose label equals the body's
      `label` field (`type == "LLM"` picks the list, anything else the chat
      list), keeping the other prompts in order. A body without `label` compares every prompt against `None`,
      which no label equals, so nothing is removed. */
  function ServerDelete(s: Stored, body: DeleteBody): (r: Stored)
    ensures var name := Ordered.Get(body.fields, "label");
      var llmTab := Ordered.Get(body.fields, "type") == Some("LLM");
      (llmTab ==> r.chat == s.chat && r.llm == Ordered.RemoveWhere(s.llm, LabelIs(name)))
      && (!llmTab ==> r.llm == s.llm && r.chat == Ordered.RemoveWhere(s.chat, LabelIs(name)))
      && (name.None? ==> r == s)
      && (name.Some? && llmTab ==> forall i :: 0 <= i < |r.llm| ==> r.llm[i].name != name.value)
      && (name.Some? && !llmTab ==> forall i :: 0 <= i < |r.chat| ==> r.chat[i].name != name.value)
  {
    var name := Ordered.Get(body.fields, "label");
    var drop := LabelIs(name);
    Ordered.RemoveWhereNothing(s.llm, drop);
    Ordered.RemoveWhereNothing(s.chat, drop);
    if Ordered.Get(body.fields, "type") == Some("LLM") then s.(llm := Ordered.RemoveWhere(s.llm, drop))
    else s.(chat := Ordered.RemoveWhere(s.chat, drop))
  }

  /** The body the dialog sends: the label under `prompt`, and the tab. */
  function ClientBody(name: string, t: Tab): DeleteBody {
    DeleteBody([("prompt", name), ("type", if t == LlmTab then "LLM" else "Chat")])
  }

  /** The dialog removes the prompt from its own list while the server,
      reading `label` from a body that carries `prompt`, keeps it: after a
      confirmed, successful delete the two lists disagree whenever the
      label was present. */
  lemma DeleteNotMirrored(e: Editor, s: Stored, t: Tab, name: string)
    requires exists i :: 0 <= i < |PaneOf(e, t).prompts| && PaneOf(e, t).prompts[i].name == name
    ensures ServerDelete(s, ClientBody(name, t)) == s
    ensures PaneOf(Delete(e, t, name, true, true), t).prompts != PaneOf(e, t).prompts
  {
    var body := ClientBody(name, t);
    assert body.fields[0].0 == "prompt" && body.fields[1].0 == "type";
    assert Ordered.Get(body.fields, "label") == None;
    var i :| 0 <= i < |PaneOf(e, t).prompts| && PaneOf(e, t).prompts[i].name == name;
    var after := PaneOf(Delete(e, t, name, true, true), t).prompts;
    assert i >= |after| || after[i].name != PaneOf(e, t).prompts[i].name;
  }
}

=== FILE: streaming_query.dfy ===
/** The streaming `query` route of `tok/main.py` and `app/main.py`: the
    answer is streamed chunk by chunk, and only after the last chunk is
    the turn saved, opening and titling a session on the first turn of a
    chat. Both back-ends open the session file before they cut the title
    out of the model's answer; the members marked `AsWritten` keep that
    order, the others cut the title first. */
module StreamingQuery {
  import opened Wrappers
  import opened Text
  import opened Messages
  import opened SessionLog
  import opened SessionStore
  import opened Titles
  import opened ChatServer
  import Ordered

  /** The line a failed save appends to the stream. */
  const ErrorLine: string := "[ERROR] Something went wrong. Please try again later."

  /** A back-end whose sessions all start with their header, and whose
      current session, if any, exists and is non-empty. */
  predicate Consistent(s: State) {
    (forall i :: 0 <= i < |s.folder| ==> HeaderFirst(s.folder[i].log)) &&
    (s.current.Some? ==> Locate(s.folder, s.current.value).Some? && s.folder[Locate(s.folder, s.current.value).value].log != [])
  }

  /** Creating a session replaces at most the file of that name. */
  lemma OpenedAsCells(folder: seq<SessionFile>, name: string, log: seq<Entry>)
    ensures var r := OpenedAs(folder, name, log);
      forall i :: 0 <= i < |r| ==> r[i] == SessionFile(name, log) || (i < |folder| && r[i] == folder[i])
  {
  }

  /** A first turn keeps every session well formed and leaves the new
      one current and non-empty. */
  lemma OpenWithConsistent(s: State, header: Entry, turn: Entry, memory: seq<ChatMessage>, updated: bool)
    requires Consistent(s) && header.Header? && turn.Turn?
    ensures var created := OpenWith(s.folder, header, turn);
      Consistent(State(created.folder, Some(created.name), memory, updated))
  {
    var created := OpenWith(s.folder, header, turn);
    OpenedAsCells(s.folder, created.name, [header, turn]);
  }

  /** Saving a turn to a well-formed current session keeps the back-end
      consistent. */
  lemma AppendConsistent(s: State, turn: Entry, memory: seq<ChatMessage>)
    requires Consistent(s) && s.current.Some? && turn.Turn?
    ensures Append(s.folder, s.current.value, turn).Some?
    ensures Consistent(s.(folder := Append(s.folder, s.current.value, turn).value, memory := memory))
  {
    var name := s.current.value;
    AppendKeepsNames(s.folder, name, turn);
    var i := Locate(s.folder, name).value;
    var log := s.folder[i].log;
    assert HeaderFirst(log + [turn]);
  }

  /** Opening a listed session or starting a new chat keeps the back-end
      consistent. */
  lemma ChooseKeepsConsistent(b: Backend, s: State, filename: Field<string>)
    requires Consistent(s) && DistinctNames(s.folder)
    ensures Consistent(ChooseChatHistory(b, s, filename).state)
    ensures Consistent(NewChat(b, s))
  {
    if filename.Given? && Choosable(s.folder, filename.value).Some? {
      var i := Choosable(s.folder, filename.value).value;
      assert Locate(s.folder, filename.value) == Some(i) by {
        assert forall j :: 0 <= j < |s.folder| && j != i ==> Name(s.folder[j]) != filename.value;
      }
    }
  }

  // ---- tok ----

  /** `query` of `tok/main.py` as written, once the model has streamed
      `chunks` and, for a first turn, completed the title as `titled`.
      A first turn opens the session and makes it current before
      `split('"')[1]` can raise; the raise ends the stream with the error
      line, leaving the new session empty. */
  function TokQueryAsWritten(s: State, query: Field<string>, useEngine: Field<bool>, ready: bool, chunks: seq<string>, titled: string): (r: Served<seq<string>>)
    ensures !query.Given? ==> r == Served(s, Failure(400))
    ensures query.Given? && !ready ==> r == Served(s, Failure(500))
    ensures r.reply.Success? ==> r.reply.value == chunks || r.reply.value == chunks + [ErrorLine]
    ensures r.reply.Success? ==> r.state.current.Some? && (s.current.Some? ==> r.state.current == s.current)
    ensures r.reply.Success? && s.current.None? && TitleBySplit(titled).None? ==>
      r.state.folder == OpenedAs(s.folder, SessionName(|s.folder| + 1), []) && r.reply.value == chunks + [ErrorLine]
  {
    if !query.Given? then Served(s, Failure(400))
    else if !ready then Served(s, Failure(500))
    else
      var q := query.value;
      var bot := Concat(chunks);
      var asked := s.memory + [ChatMessage(UserRole, q)];
      var answered := if Truthy(useEngine) then asked else asked + [ChatMessage(AssistantRole, bot)];
      match s.current
      case None =>
        var started := StartNewSession(s.folder);
        (match TitleBySplit(titled)
         case None => Served(State(started.folder, Some(started.name), asked, s.updated), Success(chunks + [ErrorLine]))
         case Some(title) =>
           var created := OpenWith(s.folder, Header(title, None), Turn(q, bot));
           Served(State(created.folder, Some(created.name), answered, s.updated), Success(chunks)))
      case Some(name) =>
        match Append(s.folder, name, Turn(q, bot))
        case None => Served(s.(memory := answered), Success(chunks + [ErrorLine]))
        case Some(saved) => Served(s.(folder := saved, memory := answered), Success(chunks))
  }

  /** `query` of `tok/main.py` with the title cut out before the session
      is opened: an answer without quotes ends the stream with the error
      line and opens nothing. */
  function TokQuery(s: State, query: Field<string>, useEngine: Field<bool>, ready: bool, chunks: seq<string>, titled: string): (r: Served<seq<string>>)
    ensures !query.Given? ==> r == Served(s, Failure(400))
    ensures query.Given? && !ready ==> r == Served(s, Failure(500))
    ensures query.Given? && ready && s.current.None? && TitleBySplit(titled).None? ==>
      r.state.folder == s.folder && r.state.current.None? && r.reply == Success(chunks + [ErrorLine])
    ensures query.Given? && ready && s.current.None? && TitleBySplit(titled).Some? ==>
      r.reply == Success(chunks) && r.state.current == Some(SessionName(|s.folder| + 1)) &&
      r.state.folder == OpenedAs(s.folder, SessionName(|s.folder| + 1), [Header(TitleBySplit(titled).value, None), Turn(query.value, Concat(chunks))])
  {
    if !query.Given? then Served(s, Failure(400))
    else if !ready then Served(s, Failure(500))
    else
      var q := query.value;
      var bot := Concat(chunks);
      var asked := s.memory + [ChatMessage(UserRole, q)];
      var answered := if Truthy(useEngine) then asked else asked + [ChatMessage(AssistantRole, bot)];
      match s.current
      case None =>
        (match TitleBySplit(titled)
         case None => Served(s.(memory := asked), Success(chunks + [ErrorLine]))
         case Some(title) =>
           var created := OpenWith(s.folder, Header(title, None), Turn(q, bot));
           Served(State(created.folder, Some(created.name), answered, s.updated), Success(chunks)))
      case Some(name) =>
        match Append(s.folder, name, Turn(q, bot))
        case None => Served(s.(memory := answered), Success(chunks + [ErrorLine]))
        case Some(saved) => Served(s.(folder := saved, memory := answered), Success(chunks))
  }

  /** With the title cut first, every query keeps the back-end consistent,
      and a query in an open session is always saved: the stream carries
      no error line and the session's list ends with the turn. */
  lemma TokQueryKeepsConsistent(s: State, query: Field<string>, useEngine: Field<bool>, ready: bool, chunks: seq<string>, titled: string)
    requires Consistent(s)
    ensures Consistent(TokQuery(s, query, useEngine, ready, chunks, titled).state)
    ensures query.Given? && ready && s.current.Some? ==>
      var r := TokQuery(s, query, useEngine, ready, chunks, titled);
      var i := Locate(s.folder, s.current.value).value;
      r.reply == Success(chunks) && r.state.current == s.current &&
      r.state.folder[i].log == s.folder[i].log + [Turn(query.value, Concat(chunks))]
  {
    if query.Given? && ready {
      var q, bot := query.value, Concat(chunks);
      var asked := s.memory + [ChatMessage(UserRole, q)];
      var answered := if Truthy(useEngine) then asked else asked + [ChatMessage(AssistantRole, bot)];
      match s.current
      case None =>
        if TitleBySplit(titled).Some? {
          OpenWithConsistent(s, Header(TitleBySplit(titled).value, None), Turn(q, bot), answered, s.updated);
        }
      case Some(name) =>
        AppendConsistent(s, Turn(q, bot), answered);
    }
  }

  /** The first session of an empty folder is `session_1.json`. */
  lemma FirstSession()
    ensures StartNewSession([]) == Started([SessionFile("session_1.json", [])], "session_1.json")
  {
    assert NatToString(1) == "1";
    assert SessionName(1) == "session_1.json";
  }

  /** The first turn of a chat whose title answer has no quote is lost as
      written: the empty session stays current, the next turn lands at
      index 0, the history lists the session without a title, and the
      browser and the server memory both skip that turn as the header. */
  lemma TokFirstTurnLost()
    ensures var r1 := TokQueryAsWritten(State([], None, [], false), Given("hi"), Absent, true, ["Hello"], "Untitled");
      r1.reply == Success(["Hello", ErrorLine]) &&
      r1.state.folder == [SessionFile("session_1.json", [])] && r1.state.current == Some("session_1.json")
    ensures var s1 := State([SessionFile("session_1.json", [])], Some("session_1.json"), [ChatMessage(UserRole, "hi")], false);
      var r2 := TokQueryAsWritten(s1, Given("again"), Absent, true, ["Sure"], "unused");
      var log := [Turn("again", "Sure")];
      r2.reply == Success(["Sure"]) &&
      r2.state.folder == [SessionFile("session_1.json", log)] && !Consistent(r2.state) &&
      History(r2.state.folder) == [(None, "session_1.json")] &&
      Rebuild(log) == [] && Memory(log).memory == []
  {
    TokTitleFailureAfterOpening();
    TokNextTurnTakesHeaderSlot();
  }

  /** The first turn of that example: the session file is created empty,
      then the title cannot be cut out and the stream ends with the error
      line. */
  lemma TokTitleFailureAfterOpening()
    ensures var r1 := TokQueryAsWritten(State([], None, [], false), Given("hi"), Absent, true, ["Hello"], "Untitled");
      r1.reply == Success(["Hello", ErrorLine]) &&
      r1.state.folder == [SessionFile("session_1.json", [])] && r1.state.current == Some("session_1.json")
  {
    FirstSession();
    UntitledHasNoTitle();
    assert ["Hello"] + [ErrorLine] == ["Hello", ErrorLine];
  }

  /** The second turn of that example: the turn is appended at index 0 of
      the empty session, where the header belongs. */
  lemma TokNextTurnTakesHeaderSlot()
    ensures var s1 := State([SessionFile("session_1.json", [])], Some("session_1.json"), [ChatMessage(UserRole, "hi")], false);
      var r2 := TokQueryAsWritten(s1, Given("again"), Absent, true, ["Sure"], "unused");
      var log := [Turn("again", "Sure")];
      r2.reply == Success(["Sure"]) &&
      r2.state.folder == [SessionFile("session_1.json", log)] && !Consistent(r2.state) &&
      History(r2.state.folder) == [(None, "session_1.json")] &&
      Rebuild(log) == [] && Memory(log).memory == []
  {
    assert Concat(["Sure"]) == "Sure";
    var folder := [SessionFile("session_1.json", [])];
    var log := [Turn("again", "Sure")];
    assert Locate(folder, "session_1.json") == Some(0);
    assert folder[0].log + [Turn("again", "Sure")] == log;
    assert folder[0 := SessionFile("session_1.json", log)] == [SessionFile("session_1.json", log)];
    assert Append(folder, "session_1.json", Turn("again", "Sure")) == Some([SessionFile("session_1.json", log)]);
    assert EndsWith("session_1.json", ".json");
    assert History([SessionFile("session_1.json", log)]) == [(None, "session_1.json")];
  }

  // ---- app ----

  /** With the session marked updated, `app`'s save is a plain append. */
  lemma AppAppendWhenUpdated(folder: seq<SessionFile>, name: string, today: int, data: Entry)
    ensures AppAppend(folder, name, true, today, data) == Append(folder, name, data)
  {
  }

  /** `query` of `app/main.py` as written. On the plain model path the
      query sent, remembered and saved carries the selected LLM prompt
      `suffix`. A first turn opens the session and makes it current before
      the title split can raise; a good title dates the header `today`
      and marks the session updated. Saving into an empty session that is
      not marked updated raises, ending the stream with the error line. */
  function AppQueryAsWritten(s: State, query: Field<string>, useEngine: Field<bool>, ready: bool, suffix: string, chunks: seq<string>, titled: string, today: int): (r: Served<seq<string>>)
    ensures !query.Given? ==> r == Served(s, Failure(400))
    ensures query.Given? && !ready ==> r == Served(s, Failure(500))
    ensures r.reply.Success? ==> r.reply.value == chunks || r.reply.value == chunks + [ErrorLine]
    ensures r.reply.Success? ==> r.state.current.Some? && (s.current.Some? ==> r.state.current == s.current)
  {
    if !query.Given? then Served(s, Failure(400))
    else if !ready then Served(s, Failure(500))
    else
      var q := if Truthy(useEngine) then query.value else query.value + suffix;
      var bot := Concat(chunks);
      var asked := s.memory + [ChatMessage(UserRole, q)];
      var answered := if Truthy(useEngine) then asked else asked + [ChatMessage(AssistantRole, bot)];
      match s.current
      case None =>
        var started := StartNewSession(s.folder);
        (match TitleBySplit(titled)
         case None => Served(State(started.folder, Some(started.name), asked, s.updated), Success(chunks + [ErrorLine]))
         case Some(title) =>
           // both saves run with `current_session_updated` set
           var created := OpenWith(s.folder, Header(title, Some(today)), Turn(q, bot));
           Served(State(created.folder, Some(created.name), answered, true), Success(chunks)))
      case Some(name) =>
        match AppAppend(s.folder, name, s.updated, today, Turn(q, bot))
        case None => Served(s.(memory := answered), Success(chunks + [ErrorLine]))
        case Some(saved) => Served(s.(folder := saved, memory := answered), Success(chunks))
  }

  /** As written, once an empty session is current and not marked updated
      no later query can save: every stream ends with the error line and
      the folder never changes. */
  lemma AppSessionStuck(s: State, query: Field<string>, useEngine: Field<bool>, suffix: string, chunks: seq<string>, titled: string, today: int)
    requires query.Given?
    requires s.current.Some? && Locate(s.folder, s.current.value).Some?
    requires s.folder[Locate(s.folder, s.current.value).value].log == [] && !s.updated
    ensures var r := AppQueryAsWritten(s, query, useEngine, true, suffix, chunks, titled, today);
      r.reply == Success(chunks + [ErrorLine]) && r.state.folder == s.folder &&
      r.state.current == s.current && !r.state.updated
  {
  }

  /** A first turn whose title answer has no quote leaves `app` in that
      state. */
  lemma AppFailedTitleLeavesEmptySession(query: Field<string>, useEngine: Field<bool>, suffix: string, chunks: seq<string>, today: int)
    requires query.Given?
    ensures var r := AppQueryAsWritten(State([], None, [], false), query, useEngine, true, suffix, chunks, "Untitled", today);
      r.reply == Success(chunks + [ErrorLine]) &&
      r.state.folder == [SessionFile("session_1.json", [])] && r.state.current == Some("session_1.json") && !r.state.updated
  {
    FirstSession();
    UntitledHasNoTitle();
  }

  /** `query` of `app/main.py` with the title cut out before the session
      is opened. */
  function AppQuery(s: State, query: Field<string>, useEngine: Field<bool>, ready: bool, suffix: string, chunks: seq<string>, titled: string, today: int): (r: Served<seq<string>>)
    ensures !query.Given? ==> r == Served(s, Failure(400))
    ensures query.Given? && !ready ==> r == Served(s, Failure(500))
    ensures query.Given? && ready && s.current.None? && TitleBySplit(titled).None? ==>
      r.state.folder == s.folder && r.state.current.None? && r.reply == Success(chunks + [ErrorLine])
    ensures query.Given? && ready && s.current.None? && TitleBySplit(titled).Some? ==>
      r.reply == Success(chunks) && r.state.updated &&
      r.state.folder == OpenedAs(s.folder, SessionName(|s.folder| + 1), [Header(TitleBySplit(titled).value, Some(today)), Turn(if Truthy(useEngine) then query.value else query.value + suffix, Concat(chunks))])
  {
    if !query.Given? then Served(s, Failure(400))
    else if !ready then Served(s, Failure(500))
    else
      var q := if Truthy(useEngine) then query.value else query.value + suffix;
      var bot := Concat(chunks);
      var asked := s.memory + [ChatMessage(UserRole, q)];
      var answered := if Truthy(useEngine) then asked else asked + [ChatMessage(AssistantRole, bot)];
      match s.current
      case None =>
        (match TitleBySplit(titled)
         case None => Served(s.(memory := asked), Success(chunks + [ErrorLine]))
         case Some(title) =>
           var created := OpenWith(s.folder, Header(title, Some(today)), Turn(q, bot));
           Served(State(created.folder, Some(created.name), answered, true), Success(chunks)))
      case Some(name) =>
        match AppAppend(s.folder, name, s.updated, today, Turn(q, bot))
        case None => Served(s.(memory := answered), Success(chunks + [ErrorLine]))
        case Some(saved) => Served(s.(folder := saved, memory := answered), Success(chunks))
  }

  /** With the title cut first, `app` stays consistent and a query in an
      open session is always saved, at the end of the session's list. */
  lemma AppQueryKeepsConsistent(s: State, query: Field<string>, useEngine: Field<bool>, ready: bool, suffix: string, chunks: seq<string>, titled: string, today: int)
    requires Consistent(s)
    ensures Consistent(AppQuery(s, query, useEngine, ready, suffix, chunks, titled, today).state)
    ensures query.Given? && ready && s.current.Some? ==>
      var r := AppQuery(s, query, useEngine, ready, suffix, chunks, titled, today);
      var i := Locate(s.folder, s.current.value).value;
      r.reply == Success(chunks) && r.state.current == s.current &&
      |r.state.folder[i].log| == |s.folder[i].log| + 1 &&
      r.state.folder[i].log[|s.folder[i].log|] == Turn(if Truthy(useEngine) then query.value else query.value + suffix, Concat(chunks))
  {
    if query.Given? && ready {
      var q := if Truthy(useEngine) then query.value else query.value + suffix;
      var bot := Concat(chunks);
      var asked := s.memory + [ChatMessage(UserRole, q)];
      var answered := if Truthy(useEngine) then asked else asked + [ChatMessage(AssistantRole, bot)];
      match s.current
      case None =>
        if TitleBySplit(titled).Some? {
          OpenWithConsistent(s, Header(TitleBySplit(titled).value, Some(today)), Turn(q, bot), answered, true);
        }
      case Some(name) =>
        AppAppendKeepsHeaderFirst(s.folder, name, s.updated, today, Turn(q, bot));
    }
  }

  /** `app`'s save into a non-empty, well-formed session succeeds, keeps
      every session header-first, and keeps the session where it was. */
  lemma AppAppendKeepsHeaderFirst(folder: seq<SessionFile>, name: string, updated: bool, today: int, data: Entry)
    requires forall i :: 0 <= i < |folder| ==> HeaderFirst(folder[i].log)
    requires Locate(folder, name).Some? && folder[Locate(folder, name).value].log != []
    requires data.Turn?
    ensures var r := AppAppend(folder, name, updated, today, data);
      r.Some? && Locate(r.value, name) == Locate(folder, name) &&
      forall i :: 0 <= i < |r.value| ==> HeaderFirst(r.value[i].log)
  {
    var i := Locate(folder, name).value;
    var saved := AppAppend(folder, name, updated, today, data).value;
    assert forall j :: 0 <= j < |saved| ==> saved[j].name == folder[j].name;
    SameNamesSameLookup(folder, saved, name);
    var log := folder[i].log;
    assert HeaderFirst(saved[i].log) by {
      assert forall k :: 1 <= k < |log| ==> saved[i].log[k] == log[k];
    }
  }
}

=== FILE: text.dfy ===
/** String primitives of the two languages involved: JavaScript's
    `String.prototype.trim`, and Python's `str.find`, slicing with negative
    indices, `str.split` on one character, `str.endswith` and decimal
    formatting of a natural number. */
module Text {

  /** The code points JavaScript's `trim` removes: WhiteSpace and
      LineTerminator of ECMA-262 (sections 12.2 and 12.3). */
  predicate IsJsSpace(c: char) {
    || c == '\t' || c == '\n' || c == '\U{000B}' || c == '\U{000C}' || c == '\r'
    || c == ' ' || c == '\U{00A0}' || c == '\U{1680}'
    || ('\U{2000}' <= c <= '\U{200A}')
    || c == '\U{2028}' || c == '\U{2029}' || c == '\U{202F}' || c == '\U{205F}'
    || c == '\U{3000}' || c == '\U{FEFF}'
  }

  predicate AllSpace(s: string) {
    forall i :: 0 <= i < |s| ==> IsJsSpace(s[i])
  }

  /** Length of the longest all-space prefix. */
  function LeadingSpaces(s: string): (n: nat)
    ensures n <= |s|
    ensures AllSpace(s[..n])
    ensures n < |s| ==> !IsJsSpace(s[n])
  {
    if |s| == 0 || !IsJsSpace(s[0]) then 0
    else
      var k := LeadingSpaces(s[1..]);
      assert s[..k + 1] == [s[0]] + s[1..][..k];
      k + 1
  }

  /** Length of the longest all-space suffix. */
  function TrailingSpaces(s: string): (n: nat)
    ensures n <= |s|
    ensures AllSpace(s[|s| - n..])
    ensures n < |s| ==> !IsJsSpace(s[|s| - 1 - n])
  {
    if |s| == 0 || !IsJsSpace(s[|s| - 1]) then 0
    else
      var init := s[..|s| - 1];
      var k := TrailingSpaces(init);
      assert s[|s| - (k + 1)..] == init[|init| - k..] + [s[|s| - 1]];
      k + 1
  }

  /** JavaScript `s.trim()`: the slice left after dropping leading and
      trailing spaces. */
  function Trim(s: string): (r: string)
    ensures exists i, j :: 0 <= i <= j <= |s| && r == s[i..j] && AllSpace(s[..i]) && AllSpace(s[j..])
    ensures r != [] ==> !IsJsSpace(r[0]) && !IsJsSpace(r[|r| - 1])
  {
    var i := LeadingSpaces(s);
    var rest := s[i..];
    var j := TrailingSpaces(rest);
    assert s[i..i + (|rest| - j)] == rest[..|rest| - j];
    assert s[i + (|rest| - j)..] == rest[|rest| - j..];
    rest[..|rest| - j]
  }

  /** `s.trim() === ''` exactly when every character is a space. */
  lemma TrimEmptyIffAllSpace(s: string)
    ensures Trim(s) == [] <==> AllSpace(s)
  {
    var i := LeadingSpaces(s);
    if AllSpace(s) {
      assert i == |s|;
    } else {
      assert i < |s|;
      var rest := s[i..];
      var j := TrailingSpaces(rest);
      assert rest[0] == s[i];
      assert j < |rest|;
    }
  }

  /** Trimming a string that neither starts nor ends with white space
      gives it back unchanged; with `Trim`'s own contract this makes
      trimming idempotent. */
  lemma TrimUntrimmable(s: string)
    requires s != [] ==> !IsJsSpace(s[0]) && !IsJsSpace(s[|s| - 1])
    ensures Trim(s) == s
  {
    if s != [] {
      assert LeadingSpaces(s) == 0;
      assert s[0..] == s;
      assert TrailingSpaces(s) == 0;
    }
  }

  /** Python `s.find(c)` for a one-character needle: the first index, or -1. */
  function Find(s: string, c: char): (k: int)
    ensures -1 <= k < |s|
    ensures k == -1 <==> c !in s
    ensures k >= 0 ==> s[k] == c && c !in s[..k]
  {
    if |s| == 0 then -1
    else if s[0] == c then 0
    else
      var k := Find(s[1..], c);
      if k == -1 then -1
      else
        assert s[..k + 1] == [s[0]] + s[1..][..k];
        k + 1
  }

  /** Python's normalisation of one slice bound against a length `n`. */
  function PyBound(x: int, n: nat): (b: nat)
    ensures b <= n
  {
    if x < 0 then (if x + n < 0 then 0 else x + n)
    else if x > n then n
    else x
  }

  /** Python `s[a:b]` with step 1: negative bounds count from the end,
      out-of-range bounds are clamped, a reversed range is empty. */
  function PySlice(s: string, a: int, b: int): string {
    var i := PyBound(a, |s|);
    var j := PyBound(b, |s|);
    if i < j then s[i..j] else []
  }

  /** The inverse of `Split`: parts glued back with the separator. */
  function Join(parts: seq<string>, c: char): string
    requires |parts| >= 1
  {
    if |parts| == 1 then parts[0] else parts[0] + [c] + Join(parts[1..], c)
  }

  /** Python `s.split(c)` for a one-character separator. */
  function Split(s: string, c: char): (parts: seq<string>)
    ensures |parts| >= 1
    decreases |s|
  {
    var k := Find(s, c);
    if k == -1 then [s] else [s[..k]] + Split(s[k + 1..], c)
  }

  /** No part of a split holds the separator: `find` reports none in
      any of them. */
  lemma {:induction false} SplitPartsFree(s: string, c: char)
    ensures forall i :: 0 <= i < |Split(s, c)| ==> Find(Split(s, c)[i], c) == -1
    decreases |s|
  {
    var k := Find(s, c);
    if k != -1 {
      var rest := s[k + 1..];
      SplitPartsFree(rest, c);
      var parts := Split(s, c);
      assert parts == [s[..k]] + Split(rest, c);
      forall i | 0 <= i < |parts|
        ensures Find(parts[i], c) == -1
      {
        if i > 0 {
          assert parts[i] == Split(rest, c)[i - 1];
        }
      }
    }
  }

  /** A split yields a single part exactly when `find` reports no
      separator, that is when the separator is absent. */
  lemma SplitSingle(s: string, c: char)
    ensures |Split(s, c)| == 1 <==> Find(s, c) == -1
  {
    var k := Find(s, c);
    if k != -1 {
      var tail := Split(s[k + 1..], c);
      assert Split(s, c) == [s[..k]] + tail && |tail| >= 1;
    }
  }

  /** The first separator of `p + [c] + rest` is the one after `p` when `p`
      holds none. */
  lemma {:induction false} FindAfterPrefix(p: string, c: char, rest: string)
    requires c !in p
    ensures Find(p + [c] + rest, c) == |p|
    decreases |p|
  {
    if |p| > 0 {
      assert (p + [c] + rest)[1..] == p[1..] + [c] + rest;
      FindAfterPrefix(p[1..], c, rest);
    }
  }

  /** Splitting a joined list gives the list back, when no part holds the
      separator. */
  lemma {:induction false} SplitJoin(parts: seq<string>, c: char)
    requires |parts| >= 1
    requires forall i :: 0 <= i < |parts| ==> c !in parts[i]
    ensures Split(Join(parts, c), c) == parts
    decreases |parts|
  {
    if |parts| > 1 {
      SplitJoin(parts[1..], c);
      SplitAfterPrefix(parts[0], c, Join(parts[1..], c));
      assert parts == [parts[0]] + parts[1..];
    }
  }

  /** Splitting at the separator that follows a separator-free prefix
      cuts off exactly that prefix. */
  lemma SplitAfterPrefix(p: string, c: char, tail: string)
    requires c !in p
    ensures Split(p + [c] + tail, c) == [p] + Split(tail, c)
  {
    var s := p + [c] + tail;
    FindAfterPrefix(p, c, tail);
    assert s[..|p|] == p;
    assert s[|p| + 1..] == tail;
  }

  predicate EndsWith(s: string, suffix: string) {
    |suffix| <= |s| && s[|s| - |suffix|..] == suffix
  }

  function DigitChar(d: nat): (c: char)
    requires d < 10
    ensures '0' <= c <= '9'
  {
    (48 + d) as char
  }

  /** The number a string of decimal digits denotes, most significant
      digit first. */
  function DecimalValue(s: string): int
    decreases |s|
  {
    if s == [] then 0 else 10 * DecimalValue(s[..|s| - 1]) + (s[|s| - 1] as int - 48)
  }

  /** Python `str(n)` for a natural number: its decimal digits, without
      leading zeros, denoting `n`. */
  function NatToString(n: nat): (s: string)
    ensures 1 <= |s|
    ensures n >= 10 ==> 2 <= |s|
    ensures forall i :: 0 <= i < |s| ==> '0' <= s[i] <= '9'
    ensures |s| > 1 ==> s[0] != '0'
    ensures DecimalValue(s) == n
  {
    if n < 10 then [DigitChar(n)]
    else
      var s := NatToString(n / 10) + [DigitChar(n % 10)];
      assert s[..|s| - 1] == NatToString(n / 10);
      s
  }

  /** Different numbers print differently. */
  lemma {:induction false} NatToStringInjective(a: nat, b: nat)
    requires NatToString(a) == NatToString(b)
    ensures a == b
  {
    var s := NatToString(a);
    if a >= 10 && b >= 10 {
      assert DigitChar(a % 10) == s[|s| - 1] == DigitChar(b % 10);
      assert NatToString(a / 10) == s[..|s| - 1] == NatToString(b / 10);
      NatToStringInjective(a / 10, b / 10);
    } else if a < 10 && b < 10 {
      assert DigitChar(a) == s[0] == DigitChar(b);
    }
  }
}

=== FILE: titles.dfy ===
/** Session titles: the model is asked for "a short and crisp title ... in
    quotes", and the back-ends cut the title out of its answer in two
    different ways. */
module Titles {
  import opened Wrappers
  import opened Text

  const Quote: char := '"'

  /** The reference meaning of "the quoted title": the text after the
      first quote, up to the next quote or to the end. */
  function Quoted(t: string): Option<string> {
    var i := Find(t, Quote);
    if i == -1 then None
    else
      var rest := t[i + 1..];
      var j := Find(rest, Quote);
      Some(if j == -1 then rest else rest[..j])
  }

  /** `title_response.split('"')[1]` of the `tok` and `app` back-ends;
      `None` stands for the `IndexError` raised when there is no quote. */
  function TitleBySplit(t: string): (r: Option<string>)
    ensures r.None? <==> Quote !in t
    ensures r.Some? ==> Quote !in r.value
  {
    var parts := Split(t, Quote);
    SplitSingle(t, Quote);
    SplitPartsFree(t, Quote);
    if |parts| < 2 then None else Some(parts[1])
  }

  /** Splitting at quotes and taking the second part is the quoted title. */
  lemma SplitTitleIsQuoted(t: string)
    ensures TitleBySplit(t) == Quoted(t)
  {
    var i := Find(t, Quote);
    if i != -1 {
      var rest := t[i + 1..];
      var parts := Split(t, Quote);
      assert parts == [t[..i]] + Split(rest, Quote);
      assert parts[1] == Split(rest, Quote)[0];
      var j := Find(rest, Quote);
      if j != -1 {
        assert Split(rest, Quote) == [rest[..j]] + Split(rest[j + 1..], Quote);
      } else {
        assert Split(rest, Quote) == [rest];
      }
    }
  }

  /** `server.py`'s slicing: `start = find('"') + 1`,
      `end = t[start:].find('"')`, title `t[start:start+end]`, with
      Python's negative-index slicing when a find fails. */
  function TitleByFind(t: string): (r: string)
    ensures Quote !in t ==> r == (if t == [] then [] else t[..|t| - 1])
    ensures Quote in t && Quote !in t[Find(t, Quote) + 1..] ==> r == []
    ensures Quote in t && Quote in t[Find(t, Quote) + 1..] ==> Quoted(t) == Some(r)
  {
    var start := Find(t, Quote) + 1;
    var end := Find(t[start..], Quote);
    assert end >= 0 ==> t[start..start + end] == t[start..][..end];
    PySlice(t, start, start + end)
  }

  /** With two quotes or more both extractions give the same title; with
      fewer they part ways: no quote makes the split raise while slicing
      keeps all but the last character, and one quote makes the split
      return the tail while slicing returns nothing. */
  lemma TitleExtractionsAgree(t: string)
    ensures Quote in t && Quote in t[Find(t, Quote) + 1..] ==> TitleBySplit(t) == Some(TitleByFind(t))
    ensures Quote !in t ==> TitleBySplit(t).None?
    ensures Quote in t && Quote !in t[Find(t, Quote) + 1..] ==>
      TitleBySplit(t) == Some(t[Find(t, Quote) + 1..]) && TitleByFind(t) == []
  {
    SplitTitleIsQuoted(t);
  }

  /** An answer without quotes, such as "Untitled", yields no title. */
  lemma UntitledHasNoTitle()
    ensures TitleBySplit("Untitled").None?
  {
    assert Quote !in "Untitled";
  }
}

=== FILE: upload_modal.dfy ===
/** The upload dialog of the `app` tree: the files picked so far and an
    editable list of key/value metadata pairs, handed to the caller on
    save. */
module UploadModal {

  datatype FileBlob = FileBlob(name: string, content: string)

  datatype MetaField = MetaField(key: string, value: string)

  datatype Field = Key | Value

  datatype UploadForm = UploadForm(files: seq<FileBlob>, metadata: seq<MetaField>)

  const Blank := MetaField("", "")

  /** `useState([])` and `useState([{ key: '', value: '' }])`. */
  const Initial := UploadForm([], [Blank])

  /** The metadata list is never empty, so the add button can always read
      its last pair. */
  predicate Valid(f: UploadForm) {
    |f.metadata| >= 1
  }

  /** `handleFileChange`: the newly picked files go after the ones already
      held, in the order picked. */
  function ChooseFiles(f: UploadForm, picked: seq<FileBlob>): (r: UploadForm)
    ensures |r.files| == |f.files| + |picked|
    ensures r.files[..|f.files|] == f.files && r.files[|f.files|..] == picked
    ensures r.metadata == f.metadata
  {
    f.(files := f.files + picked)
  }

  /** `handleMetadataChange(index, field, value)`: one field of one pair. */
  function EditField(f: UploadForm, index: nat, field: Field, value: string): (r: UploadForm)
    requires index < |f.metadata|
    ensures |r.metadata| == |f.metadata| && r.files == f.files
    ensures forall j :: 0 <= j < |f.metadata| && j != index ==> r.metadata[j] == f.metadata[j]
    ensures field == Key ==> r.metadata[index] == MetaField(value, f.metadata[index].value)
    ensures field == Value ==> r.metadata[index] == MetaField(f.metadata[index].key, value)
  {
    var old_ := f.metadata[index];
    var updated := if field == Key then old_.(key := value) else old_.(value := value);
    f.(metadata := f.metadata[index := updated])
  }

  /** The "+ Add Metadata" button is enabled only once the last pair has
      both a key and a value. */
  predicate CanAddField(f: UploadForm)
    requires Valid(f)
  {
    f.metadata[|f.metadata| - 1].key != "" && f.metadata[|f.metadata| - 1].value != ""
  }

  /** `addMetadataField`: one blank pair at the end. */
  function AddField(f: UploadForm): (r: UploadForm)
    ensures |r.metadata| == |f.metadata| + 1 && r.metadata[|f.metadata|] == Blank
    ensures r.metadata[..|f.metadata|] == f.metadata && r.files == f.files
  {
    f.(metadata := f.metadata + [Blank])
  }

  /** "Save changes" is disabled while no file is selected. */
  predicate CanSave(f: UploadForm) {
    |f.files| > 0
  }

  /** `handleSaveClick`: what is handed to the caller, and the dialog's
      next state. */
  datatype Saved = Saved(handed: UploadForm, next: UploadForm)

  function Save(f: UploadForm): (r: Saved)
    ensures r.handed == f
    ensures r.next.files == [] && r.next.metadata == [Blank]
  {
    Saved(f, Initial)
  }

  /** One user action on the dialog; a disabled button does nothing, and an
      edit of a pair that is not displayed cannot happen. */
  datatype Action =
    | Pick(picked: seq<FileBlob>)
    | Edit(index: nat, field: Field, value: string)
    | AddPair
    | SaveClick

  function Step(f: UploadForm, a: Action): (r: UploadForm)
    requires Valid(f)
    ensures Valid(r)
    ensures |r.metadata| == |f.metadata| || |r.metadata| == |f.metadata| + 1 || r.metadata == [Blank]
  {
    match a
    case Pick(picked) => ChooseFiles(f, picked)
    case Edit(i, field, value) => if i < |f.metadata| then EditField(f, i, field, value) else f
    case AddPair => if CanAddField(f) then AddField(f) else f
    case SaveClick => if CanSave(f) then Save(f).next else f
  }

  function Run(f: UploadForm, actions: seq<Action>): UploadForm
    requires Valid(f)
    decreases |actions|
  {
    if actions == [] then f
    else
      Run(Step(f, actions[0]), actions[1..])
  }

  /** Any sequence of actions from a valid dialog (the initial one is)
      leaves the metadata list non-empty. */
  lemma {:induction false} RunKeepsValid(f: UploadForm, actions: seq<Action>)
    requires Valid(f)
    ensures Valid(Run(f, actions))
    decreases |actions|
  {
    if actions != [] {
      RunKeepsValid(Step(f, actions[0]), actions[1..]);
    }
  }
}

=== FILE: wrappers.dfy ===
/** Failure-carrying values used throughout the model: a missing JSON value,
    a Python exception or a rejected fetch become `None` / `Failure`. */
module Wrappers {

  datatype Option<+T> = None | Some(value: T) {

    /** The value, or `default` when absent (JavaScript's `x || default`
        for a value that is never falsy when present). */
    function GetOr(default: T): T {
      match this
      case Some(v) => v
      case None => default
    }
  }

  datatype Result<+R, +E> = Success(value: R) | Failure(error: E)
}
